=== FILE: README.md ===
# View transitions, modelled in Dafny

This project models a script that emulates CSS View Transitions Level 1 in
the page. A page calls `document.startViewTransition(callback)`. The script
then captures the old state of the configured elements. It runs the update
callback, captures the new state and builds a tree of pseudo-elements. It
animates between the two states with rules that it writes into a dynamic
style sheet. Each frame it checks whether the animations are over. A view
transition has three promises:

- `updateCallbackDone`;
- `ready`;
- `finished`.

It moves through the phases "pending-capture", "update-callback-called",
"animating" and "done". Skipping it ends it in any phase.

The model also covers `invertColor`, the colour helper of the demo page.

Modules, one per concern of the script:

- `Common`: `Option`, the errors the script throws, `indexOf`, and the
  deletion of the first occurrence;
- `Scene`: what the page offers the capture passes. Every configured
  element has a view transition name, visibility, box, image and computed
  styles;
- `StyleSheets`: the style sheet wrapper that keeps a list of rule objects
  in step with its CSSOM sheet;
- `Promises`: the watchable promise, whose status can be read;
- `Transitions`: the phases, the captured-element records, the ordered map
  of named elements, and the `ViewTransition` class;
- `Documents`: the document-wide state: the active view transition,
  rendering suppression, the dynamic style sheet, the show-tree flag, the
  update callback queue, and the "captured in a view transition" flags;
- `Captures`: capturing the old state and capturing the new state;
- `PseudoElements`: setting up the transition pseudo-elements, and updating
  the pseudo-element styles;
- `Lifecycle`: starting, skipping, clearing, the update callback and its
  queue, setting up, activating, the frame step, and the pending
  operations;
- `Colors`: `invertColor`.

Objects whose fields the script updates are classes:

- the style sheet;
- the promises;
- the transition;
- the document.

The algorithms are methods with `modifies` clauses. Loops keep their loops:

- the two capture passes;
- the clearing loop;
- the flag loop;
- the flush of the queue;
- the set-up of the records;
- the style update;
- the animation scan.

Each method is proved against functions of its inputs. Lemmas state the
properties of those functions.

The model keeps the script's behaviour where it departs from CSS View
Transitions Level 1:

- Skipping a transition whose update callback has not run queues the
  global object, not the transition (`src/css-view-transitions-1.js:368`).
  The next flush throws on that entry, and the queue is never emptied
  again.
- The frame step compares play states with `'pause'`
  (`src/css-view-transitions-1.js:510`). Only running animations keep a
  transition alive.
- Clearing loops over `Object.entries(...)` with `(key, style)`. This
  binds an index where the rule is meant, so the clearing step deletes
  no rule (`src/css-view-transitions-1.js:585-591`).
- Step 1.5 of updating the styles tests `newELement`
  (`src/css-view-transitions-1.js:1280`). That field is never set, so
  the step never runs.
- Set-up stores the image pair isolation rule under
  `imagePairIsolationRule`, but the struct declares
  `imagePareIsolationRule`.
- The snapshot containing block size is read once, when the script loads.
- Calling the update callback always fulfils its promise, so the
  rejection steps never run.
- `WatchablePromise.resolve` and `reject` record the new status even on a
  promise that is already settled.

## Model

| member | source | states |
|---|---|---|
| Common.IndexOf | src/css-view-transitions-1.js:367 | the index of the first occurrence of the value, and -1 exactly when the value is absent |
| Common.RemoveFirstCount | src/css-view-transitions-1.js:98-105 | deleting a rule drops one copy of it when present and nothing otherwise; the length falls by one only when present |
| Common.RemoveFirstAfterAppend | src/css-view-transitions-1.js:89-105 | deleting a rule that was just appended (and was not there before) gives back the list as it was |
| Scene.KeptMembers | src/css-view-transitions-1.js:781-786 | the elements a capture pass keeps are exactly the configured ones whose name is not `none` and that are rendered |
| StyleSheets.TextsRemoveAt | src/css-view-transitions-1.js:98-104 | removing a rule at an index from the list removes the text at that same index from the CSSOM sheet |
| StyleSheets.StyleSheet.constructor | src/css-view-transitions-1.js:85-87 | a new sheet holds no rules and its CSSOM sheet no texts, so the two start in step |
| StyleSheets.StyleSheet.InsertRule | src/css-view-transitions-1.js:89-92 | the rule is appended to the list and its text to the CSSOM sheet; the two stay in step; the rule is then present, with one more copy |
| StyleSheets.StyleSheet.DeleteRule | src/css-view-transitions-1.js:98-105 | the first copy of the rule leaves the list and its text leaves the CSSOM sheet; an absent rule changes nothing; the rule is still present afterwards exactly when it was there more than once |
| StyleSheets.StyleSheet.ReplaceRule | src/css-view-transitions-1.js:1269-1276 | the previous group styles rule, if any, is deleted, and the new rule is appended at the end |
| Promises.WatchablePromise.constructor | src/css-view-transitions-1.js:116-117 | a new promise is unsettled and pending, and so consistent |
| Promises.WatchablePromise.Resolve | src/css-view-transitions-1.js:151-153 | the promise is settled and fulfilled, whatever it was before |
| Promises.WatchablePromise.Reject | src/css-view-transitions-1.js:155-157 | the promise is settled and rejected, whatever it was before |
| Transitions.PhaseNamed | src/css-view-transitions-1.js:235-240 | a string names a phase exactly when it is one of the four phase names, and then that phase's name is the string |
| Transitions.PhaseIndex | src/css-view-transitions-1.js:235-240 | each phase's position in the phase list is its rank, and its name maps back to it |
| Transitions.BeforeIsRank | src/css-view-transitions-1.js:367 | comparing `indexOf` positions in the phase list is comparing the phases' order |
| Transitions.BeforeUpdateCallbackCalled | src/css-view-transitions-1.js:619 | a phase is before "update-callback-called" exactly when it is "pending-capture" |
| Transitions.NamedElements.Set | src/css-view-transitions-1.js:866 | `Map.set`: the key maps to the value afterwards, every other key keeps its entry, an existing key keeps its place, and a new key goes last |
| Transitions.ViewTransition.constructor | src/css-view-transitions-1.js:243-266 | a new transition is "pending-capture" with an empty map, no update callback, no frozen size and three fresh pending promises |
| Transitions.ViewTransition.SetPhase | src/css-view-transitions-1.js:293-299 | a phase name is taken, and any other string throws and leaves the phase alone |
| Documents.Document.constructor | src/css-view-transitions-1.js:164-209 | the starting document is valid: no active transition, no rendering suppression, the tree hidden, no roots attached, an empty update callback queue, no element flagged, a fresh empty style sheet, and the snapshot containing block size the one passed in, standing for the window size the script reads once at load |
| Documents.SetShowViewTransitionTree | src/css-view-transitions-1.js:196-206 | the flag is set; the active transition's root is attached exactly when the flag is true, and other roots are untouched; with no active transition it throws after setting the flag |
| Documents.ScheduleTheUpdateCallback | src/css-view-transitions-1.js:479-488 | the entry is appended to the update callback queue |
| Captures.DupIndexSpec | src/css-view-transitions-1.js:788-801 | the names a pass gets through are distinct, and the name it fails on repeats one of them |
| Captures.DupIndexDistinct | src/css-view-transitions-1.js:788-796 | a pass gets through every kept element exactly when their names are distinct |
| Captures.ScanStep | src/css-view-transitions-1.js:769-807 | one loop step: a skipped element or one with an unused name keeps the pass going, and a used name fails the pass at that element |
| Captures.ScanComplete | src/css-view-transitions-1.js:769-807 | a pass that reaches the end kept every participating element and their names are distinct |
| Captures.OldCapture | src/css-view-transitions-1.js:812-861 | the old record holds the element's image and styles, and the snapshot containing block at the origin for the document element or the border box otherwise; it has no new element and no rules |
| Captures.StoreOldRecords | src/css-view-transitions-1.js:810-867 | with distinct names, each element's name maps to the record captured from that element |
| Captures.StoreOldOthers | src/css-view-transitions-1.js:863-866 | names of no stored element keep their records |
| Captures.StoreOldNames | src/css-view-transitions-1.js:863-866 | starting from an empty map, the keys are the element names in element order |
| Captures.RecordOldCaptures | src/css-view-transitions-1.js:810-868 | the loop of step 8 stores each element's old record in order |
| Captures.FlagCaptureElements | src/css-view-transitions-1.js:769-807 | the pass succeeds exactly when the kept names are distinct; on success the kept elements are flagged, and on failure the flags set so far are removed again |
| Captures.CaptureTheOldState | src/css-view-transitions-1.js:749-875 | the size is frozen; success exactly when the names are distinct; on success every kept element is recorded, and on failure the map is unchanged; afterwards no scanned element is flagged |
| Captures.OldStateRecords | src/css-view-transitions-1.js:749-875 | a successful pass on a fresh transition leaves one record per kept element, keyed and ordered by name, holding that element's capture |
| Captures.StoreNewRecord | src/css-view-transitions-1.js:913-928 | with distinct names, each element's record keeps the old fields it had (or those of a fresh struct) and gains the element and its image |
| Captures.StoreNewRecords | src/css-view-transitions-1.js:913-928 | the same, for every element of the pass |
| Captures.StoreNewOthers | src/css-view-transitions-1.js:913-928 | names of no element of the pass keep their records |
| Captures.SetNewElement | src/css-view-transitions-1.js:913-928 | creates the record if the name has none, then stores the element and its image in it |
| Captures.CaptureTheNewState | src/css-view-transitions-1.js:878-930 | success exactly when the kept names are distinct; the map is the new-state store of the elements scanned up to the failure, so the changes made before a failure remain |
| PseudoElements.SetupTexts | src/css-view-transitions-1.js:994-1140 | a record with one image gets one rule, and one with both gets four |
| PseudoElements.SetupTextsStyleExistingNodes | src/css-view-transitions-1.js:960-1140 | each rule set up for a record styles only pseudo-elements its group has; the fade-in rule goes exactly to records with no old image and the fade-out rule exactly to those with no new one |
| PseudoElements.SetupStop | src/css-view-transitions-1.js:997-1025 | set-up gets through the records before the first imageless one, and stops at that one |
| PseudoElements.StoreOldKeepsImages | src/css-view-transitions-1.js:815-817 | the old-state pass keeps every record with an image |
| PseudoElements.StoreNewKeepsImages | src/css-view-transitions-1.js:913-928 | the new-state pass keeps every record with an image |
| PseudoElements.CapturedRecordsHaveImages | src/css-view-transitions-1.js:997-1025 | after the two capture passes every record has an image, so set-up never hits its assertions |
| PseudoElements.AppendRule | src/css-view-transitions-1.js:1002-1017 | a fresh rule with the given text is appended to the sheet |
| PseudoElements.AppendTwoSidedRules | src/css-view-transitions-1.js:1056-1140 | the four rules of a two-sided record are appended in the order step 3.9 creates them |
| PseudoElements.SetupRecord | src/css-view-transitions-1.js:941-1140 | the group is appended; an imageless record throws with the sheet and map unchanged; otherwise the record's rules are appended and stored in its style definitions |
| PseudoElements.SetupNext | src/css-view-transitions-1.js:941-1140 | one iteration of step 3 keeps the set-up invariant or throws at the stopping record |
| PseudoElements.SetupAdvance | src/css-view-transitions-1.js:941-1140 | the set-up invariant carries from one record to the next |
| PseudoElements.DefinedAdvance | src/css-view-transitions-1.js:997-1140 | setting up one more record gives it the definitions that hold the rules appended for it, and leaves the records already set up and those still to come alone |
| PseudoElements.SetupStep | src/css-view-transitions-1.js:941-1140 | one iteration of step 3 keeps both the set-up invariant and the per-record definitions |
| PseudoElements.SetupThrown | src/css-view-transitions-1.js:941-1000 | an imageless record is where set-up stops, and its group was appended before the throw |
| PseudoElements.SetupRecords | src/css-view-transitions-1.js:941-1140 | succeeds exactly when no record is imageless; groups and rule texts are appended in map order up to the stop; each record set up holds, in its style definitions, the appended rules whose texts step 3 writes for it, with its other definitions untouched; the records past the stop are unchanged; the sheet keeps its old rules and only gains fresh ones at its end |
| PseudoElements.SetupTransitionPseudoElements | src/css-view-transitions-1.js:933-1141 | shows the tree, attaching the active transition's root and no other, then sets up the records as `SetupRecords` says; with no active transition it throws before any record is set up, leaving the roots, sheet, groups and map alone |
| PseudoElements.GroupBlockOfUnchangedElement | src/css-view-transitions-1.js:1151-1233 | an element that has not changed gets the same group geometry and styles from its live box as from its old capture |
| PseudoElements.UpdateRecordStyles | src/css-view-transitions-1.js:1146-1277 | a fresh group styles rule built from the record's geometry replaces the previous one in the sheet and in the record |
| PseudoElements.ReplaceCounts | src/css-view-transitions-1.js:1269-1276 | replacing a rule with a new one puts the new rule in once and leaves the count of every other rule alone |
| PseudoElements.StyleStepNew | src/css-view-transitions-1.js:1146-1277 | after a step, the record just handled holds its new rule, and that rule is in the sheet once |
| PseudoElements.StyleStepDone | src/css-view-transitions-1.js:1146-1277 | after a step, the records handled earlier still hold their rules, each in the sheet once |
| PseudoElements.StyleStepCounts | src/css-view-transitions-1.js:1269-1276 | a step keeps the count of every earlier rule that is no record's group styles rule |
| PseudoElements.StyleAdvance | src/css-view-transitions-1.js:1146-1277 | the update invariant carries from one record to the next |
| PseudoElements.StyleNext | src/css-view-transitions-1.js:1146-1277 | one iteration of the update keeps its invariant |
| PseudoElements.GroupRulesCount | src/css-view-transitions-1.js:1269-1276 | when every record holds a group styles rule there is one rule per record, and none when no record does |
| PseudoElements.GroupRulesAgree | src/css-view-transitions-1.js:1269-1276 | records holding the same group styles rules list the same rules |
| PseudoElements.SheetStep | src/css-view-transitions-1.js:1269-1276 | one replacement keeps the sheet equal, rule by rule, to the old sheet less the previous rules handled so far plus the new ones |
| PseudoElements.SetUpFromRestyled | src/css-view-transitions-1.js:1269-1276 | restyling a record keeps the definitions set-up gave it, since it only rewrites the group styles rule |
| PseudoElements.DefinedAfterRestyle | src/css-view-transitions-1.js:1146-1277 | restyling every record keeps the set-up definitions of all of them |
| PseudoElements.UpdatePseudoElementStyles | src/css-view-transitions-1.js:1144-1293 | every record gets a fresh group styles rule for its current geometry, held in the sheet once, and nothing else in the record changes; the sheet, counted rule by rule, is the old sheet less the records' previous group styles rules plus their new ones, one per record; it never fails |
| Lifecycle.UnflagNewElements | src/css-view-transitions-1.js:576-591 | clearing removes the flag from every record's new element and deletes no rule |
| Lifecycle.ClearViewTransition | src/css-view-transitions-1.js:566-597 | clearing a transition that is not the active one throws and changes nothing; clearing the active one unflags its new elements, detaches its root, hides the tree and sets no transition active; the sheet keeps every rule |
| Lifecycle.SkipTheViewTransition | src/css-view-transitions-1.js:356-408 | skipping a done transition throws and changes nothing; otherwise the transition is done and not active, rendering is not suppressed, `ready` is rejected, the other two promises are fulfilled, the global object is queued if the callback had not run, and the transition is cleared if it was active |
| Lifecycle.ReleaseDocument | src/css-view-transitions-1.js:366-377 | steps 3 to 5 of skipping: queue the global object before "update-callback-called", end suppression, clear the transition if it is active, and touch nothing else |
| Lifecycle.SettleSkippedPromises | src/css-view-transitions-1.js:387-404 | `ready` is rejected, and `updateCallbackDone` and `finished` are fulfilled |
| Lifecycle.SkipTransition | src/css-view-transitions-1.js:310-315 | a done transition is left alone; any other is skipped and is no longer active |
| Lifecycle.StartViewTransition | src/css-view-transitions-1.js:319-353 | the document stays valid; a fresh transition holds the callback, an empty map and no groups; on a hidden page it is skipped and returned: done, promises settled, the global object queued, suppression ended, and the active transition, flags, tree flag and attached roots untouched; otherwise it becomes active and pending with pending promises, and a previously active one is skipped first (its promises settled, the global object queued if it was pending capture, its new elements unflagged, its root detached, the tree hidden), while with none active nothing else changes |
| Lifecycle.CalledPhase | src/css-view-transitions-1.js:623-626 | calling the update callback only moves the phase forward, and never leaves "pending-capture" |
| Lifecycle.CallFails | src/css-view-transitions-1.js:618-641 | a call throws either the phase assertion or the callback's own error |
| Lifecycle.CallTheUpdateCallback | src/css-view-transitions-1.js:616-692 | the phase moves as `CalledPhase` says; the call throws exactly when the phase assertion fails or the callback throws; otherwise `updateCallbackDone` is fulfilled |
| Lifecycle.TransitionsOfQueued | src/css-view-transitions-1.js:607 | each transition the flush reaches is held by a queue entry |
| Lifecycle.CallQueuedCallbacks | src/css-view-transitions-1.js:605-609 | the loop of step 1 calls each entry's update callback in order, stopping at the first throw; the transitions called before it are listed in order and their done promises fulfilled; phases change only for the transitions called, including the one that threw; no other done promise changes |
| Lifecycle.FlushTheUpdateCallbackQueue | src/css-view-transitions-1.js:603-613 | callbacks are called in queue order up to the first throw; the queue is emptied only when none throws; a queued global object always throws; the phases and promises of the transitions reached are the ones calling gives them, and the done promises of the transitions not reached are untouched |
| Lifecycle.ContinueSetup | src/css-view-transitions-1.js:465-475 | a done transition ends the global task; otherwise the transition is queued and the flush runs; a pending one moves to "update-callback-called" and is due for activation unless its callback throws |
| Lifecycle.FinishSetup | src/css-view-transitions-1.js:449-475 | a failed capture skips the transition; a successful one suppresses rendering and continues the set-up |
| Lifecycle.SetupAfterFlush | src/css-view-transitions-1.js:449-475 | with distinct names, the old state is recorded, rendering is suppressed and the callback is called; with repeated names, the transition is skipped and the global object is queued |
| Lifecycle.SetupViewTransition | src/css-view-transitions-1.js:441-476 | a throwing flush ends the set-up with nothing captured, the active transition and queue as they were, and the phase of a transition not queued unchanged; otherwise the set-up goes on as `SetupAfterFlush` says, after the flushed transitions; the queue gains only the transition itself or the global object, and the transition, if still active, is done only if it was done before |
| Lifecycle.FlagNewElements | src/css-view-transitions-1.js:721-727 | every record's new element is flagged, and no other flag changes |
| Lifecycle.PresentedAfterRestyle | src/css-view-transitions-1.js:729-739 | a record whose captured data the set-up kept and that the update restyled shows its group geometry |
| Lifecycle.PresentedAfterUpdate | src/css-view-transitions-1.js:733-739 | after set-up and the style update every record is presented, keeps its set-up definitions, and its previous group styles rules are those the capture left |
| Lifecycle.AllPresentedAfterRestyle | src/css-view-transitions-1.js:733-739 | restyling every record the set-up kept presents all of them |
| Lifecycle.RestyleRecords | src/css-view-transitions-1.js:735-740 | step 7: every record is presented with its group styles rule in the sheet once and keeps its set-up definitions; the sheet is the old one less the previous group styles rules plus the new ones |
| Lifecycle.AnimateTransition | src/css-view-transitions-1.js:733-745 | every record is presented with its group styles rule in the sheet once and keeps its set-up definitions; the sheet is the old one less the previous group styles rules plus the new ones; the phase is "animating" and `ready` is fulfilled |
| Lifecycle.ShowTransition | src/css-view-transitions-1.js:729-745 | the tree is shown: the active transition's root is attached and no other root changes; succeeds exactly when a transition is active and every record has an image; on failure it throws the matching error with the phase and `ready` unchanged; on success the groups are appended, every record is presented and holds its set-up definitions, and the sheet is the old one plus fresh set-up rules with the set-up texts, less the previous group styles rules, plus the new ones |
| Lifecycle.PresentTransition | src/css-view-transitions-1.js:721-745 | the records' new elements are flagged, then the transition is shown as `ShowTransition` says, root attachment included |
| Lifecycle.ActivateViewTransition | src/css-view-transitions-1.js:695-746 | a done transition is left alone; a changed size or repeated names skip the transition, leaving the sheet and groups alone and the map as the new capture left it; otherwise the queue and active transition are untouched, the tree is shown with the active root attached and no other root changed, the new elements are flagged, and it succeeds exactly when a transition is active and every record has an image: then it animates, every record is presented with its set-up definitions, and the sheet is the old one plus fresh set-up rules less the previous group styles rules plus the new ones; on failure the phase and `ready` are unchanged |
| Lifecycle.OnlyRunningCounts | src/css-view-transitions-1.js:510 | no play state is named "pause", so only a running animation counts as active |
| Lifecycle.HasActiveAnimations | src/css-view-transitions-1.js:496-514 | the scan answers true exactly when some animation of some pseudo-element counts as active |
| Lifecycle.HandleTransitionFrame | src/css-view-transitions-1.js:491-563 | with no active animation the transition is done, the queue, suppression, `ready` and `updateCallbackDone` are untouched, and it is cleared with `finished` fulfilled if active, or throws leaving the document and `finished` alone otherwise; a changed size skips it (a done one throws and nothing changes); otherwise nothing changes |
| Lifecycle.PerformPendingOperations | src/css-view-transitions-1.js:411-438 | the document stays valid, so ticks chain; with no active transition nothing happens; a pending one is set up: a throwing flush (always when the global object is queued) ends the chain with the transition still active, still pending capture when it is not itself queued, and nothing captured, otherwise its old state is recorded and its callback called, or, with repeated names, it is skipped and the next read of the active transition throws; an animating one has its frame handled, with the clearing, skipping or no change that `HandleTransitionFrame` gives; the next frame is requested exactly when nothing threw |
| Colors.DigitValue | demo/demo.js:56-58 | a hexadecimal digit's value is below 16 |
| Colors.HexChar | demo/demo.js:61-63 | the digit `toString(16)` writes is lower case and reads back as its value |
| Colors.PadStart | demo/demo.js:65 | `padStart` gives the width when the string is shorter, and otherwise the string's own length |
| Colors.PadStartContents | demo/demo.js:65 | the string ends the padded result and the fill character fills the front; a string already as wide comes back as it is |
| Colors.PaddedByte | demo/demo.js:61-65 | a byte printed in hexadecimal and padded is its two lower-case digits |
| Colors.ParseIntHex | demo/demo.js:56-58 | `parseInt(_, 16)` of two characters is NaN exactly when the first is not a hexadecimal digit, and otherwise is below 256 |
| Colors.InvertChannel | demo/demo.js:56-65 | an inverted component is at least two characters |
| Colors.StartsWithHashIsFirst | demo/demo.js:46 | `indexOf('#') === 0` holds exactly when the first character is `#` |
| Colors.StripHash | demo/demo.js:46-48 | a leading `#` is dropped, and any other input is kept |
| Colors.Expand | demo/demo.js:50-52 | three digits become six, each doubled, and other lengths are unchanged |
| Colors.InvertColor | demo/demo.js:44-66 | throws exactly when the digits after the optional `#` number neither 3 nor 6; otherwise returns `#` and at least six characters |
| Colors.InvertColorValue | demo/demo.js:53-65 | six digits invert component by component |
| Colors.NonHexChannelIsNaN | demo/demo.js:56-65 | a non-hexadecimal first digit gives "NaN" in the output, which is then longer than seven characters |
| Colors.InvertChannelComplements | demo/demo.js:56-65 | inverting two hexadecimal digits complements each digit to 15, in lower case |
| Colors.Lower | demo/demo.js:61-63 | reference definition, not code of the demo: the lower-case form of a hexadecimal string, used to state what `ComplementTwice` and `InvertTwice` give back |
| Colors.Complement | demo/demo.js:61-63 | reference definition, not code of the demo: each digit complemented to 15, against which `ComplementTwice` and `InvertTwice` are stated |
| Colors.ComplementTwice | demo/demo.js:61-63 | complementing twice only lowers the case |
| Colors.ChannelAt | demo/demo.js:56-63 | the component at a position inverts to the complement of its two digits |
| Colors.InvertedComponents | demo/demo.js:65 | the three inverted components make up the complement of the six digits |
| Colors.InvertColorDigits | demo/demo.js:44-66 | a valid colour of hexadecimal digits inverts to `#` and the complement of its six digits |
| Colors.InvertTwice | demo/demo.js:44-66 | inverting twice gives back the colour as six lower-case digits after `#` |
| Colors.HashIsOptional | demo/demo.js:46-48 | a colour inverts the same with or without a leading `#` |
| Colors.ShorthandInvertsAsExpansion | demo/demo.js:50-52 | any three characters invert exactly as their six-character expansion, the results and the failures alike |

## Left out

- Concurrency: every algorithm runs to its end (or to its throw) before another starts.
- `await` points and microtask order are not modelled.
- Activation runs as its own step, given the `due` transitions that a flush or set-up returns. In the script, activation starts inside the flush.
- The second flush microtask that `scheduleTheUpdateCallback` queues is not modelled. A later flush is a separate call of the flush method.
- Step 9 of calling the update callback (the timeout) is left out. The script does not implement it.
- Capturing an image (`html2canvas`, `captureTheImage`) is not modelled. Each element's image is an opaque value in the `Scene` parameter.
- Element geometry, visibility and computed styles are parameters: the `Scene` and its `info` function.
- Geometry uses integers, with no floating point.
- The visibility state of the page is the `hidden` parameter of `StartViewTransition`.
- The play states of the pseudo-elements' animations are the `animations` parameter.
- The flat-tree ancestor checks and the box-fragment checks are not modelled. The script does not perform them.
- Step 1.3.1 of updating the styles (return failure) is not modelled. The script does not perform it.
- The reasons passed to skipping are dropped. `resolve` and `reject` of the watchable promise take no argument.
- Step 6 of handling a frame (updating the pseudo-element styles) is disabled in the script and not modelled.
- Step 1.5 of updating the styles (appending the new image) never runs, because it tests a misspelt field.
- Building the DOM of the pseudo-element tree is reduced to the list of groups and their descendants.
- Hit testing while rendering is suppressed is not modelled. The script does not perform it.
- The tree's data attributes and the CSS text of the rules are left out. Rules carry a structured `RuleText`.
- Captured-element records are values in an ordered map. The script changes the record objects in place, but nothing else aliases them.
- The demo page's event handlers and the other demo helpers (`randomColor`, `randomString`) are left out.
- The DOM element and rule factories (`createElement`, `createCSSStyleRule`) are left out.
- `ParseIntHex`: white space, signs and a `0x` prefix in front of the digits are not modelled. `invertColor` slices two characters at a time, and the model takes those characters as they are.
- `InvertChannel`: only its length is stated in its own contract. Its value is stated by `InvertChannelComplements` and `NonHexChannelIsNaN`.

=== FILE: capture.dfy ===
/** The two capture passes: the old state before the update callback runs and
    the new state after it. Both scan the configured elements, keep the
    participating ones, fail on a transition name used twice, and fill the
    transition's named elements map. */
module Captures {
  import opened Common
  import opened Scene
  import opened Transitions
  import opened Documents

  // ---------------------------------------------------------------------------
  // The name-uniqueness scan
  // ---------------------------------------------------------------------------

  /** The position of the first name that was already used earlier in the
      list, or the length of the list when every name is new: how far a scan
      that records used names gets before it fails. */
  function DupIndex(names: seq<string>): (d: nat)
    ensures d <= |names|
  {
    if |names| == 0 then 0
    else
      var init := names[..|names| - 1];
      var d := DupIndex(init);
      if d < |init| then d
      else if names[|names| - 1] in init then |init|
      else |names|
  }

  /** The names before the stopping point are distinct, and the name at the
      stopping point, if any, is one of them. */
  lemma {:induction false} DupIndexSpec(names: seq<string>)
    ensures Distinct(names[..DupIndex(names)])
    ensures DupIndex(names) < |names| ==> names[DupIndex(names)] in names[..DupIndex(names)]
  {
    if |names| > 0 {
      var init := names[..|names| - 1];
      DupIndexSpec(init);
      var d := DupIndex(init);
      if d < |init| {
        assert names[..d] == init[..d];
        assert names[..d + 1] == init[..d + 1];
      } else if names[|names| - 1] in init {
        assert names[..|init|] == init;
      } else {
        assert names[..|names|] == init + [names[|names| - 1]];
        assert init[..|init|] == init;
        DistinctSnoc(init, names[|names| - 1]);
      }
    }
  }

  /** The scan fails exactly when some name occurs twice. */
  lemma DupIndexDistinct(names: seq<string>)
    ensures DupIndex(names) == |names| <==> Distinct(names)
  {
    DupIndexSpec(names);
    var d := DupIndex(names);
    if d == |names| {
      assert names[..d] == names;
    } else {
      var k :| 0 <= k < d && names[..d][k] == names[d];
      assert names[k] == names[d];
    }
  }

  /** One more name: the scan either had already failed, fails on it, or
      passes it. */
  lemma DupIndexSnoc(names: seq<string>, n: string)
    ensures DupIndex(names + [n]) ==
              if DupIndex(names) < |names| then DupIndex(names)
              else if n in names then |names|
              else |names| + 1
  {
    assert (names + [n])[..|names|] == names;
  }

  /** Once the scan has failed on a prefix, later names do not matter. */
  lemma {:induction false} DupIndexPrefix(a: seq<string>, b: seq<string>)
    requires DupIndex(a) < |a|
    ensures DupIndex(a + b) == DupIndex(a)
    decreases |b|
  {
    if |b| > 0 {
      var b' := b[..|b| - 1];
      assert a + b == (a + b') + [b[|b| - 1]];
      DupIndexPrefix(a, b');
      DupIndexSnoc(a + b', b[|b| - 1]);
    } else {
      assert a + b == a;
    }
  }

  /** The kept elements of a pass and how far its scan gets. */
  function ScanLength(scene: Scene): (d: nat)
    ensures d <= |Kept(scene.elements, scene.info)|
  {
    DupIndex(NamesOf(Kept(scene.elements, scene.info), scene.info))
  }

  /** The elements a pass has dealt with when it stops: all kept elements on
      success, those before the first repeated name on failure. */
  function Scanned(scene: Scene): seq<ElementId>
  {
    Kept(scene.elements, scene.info)[..ScanLength(scene)]
  }

  /** The loop step shared by both passes: a kept element whose name is in use
      makes the whole pass fail at this point. */
  lemma ScanFailsHere(elements: seq<ElementId>, i: nat, info: ElementId -> ElementInfo)
    requires i < |elements|
    requires DupIndex(NamesOf(KeptPrefix(elements, i, info), info)) == |KeptPrefix(elements, i, info)|
    requires Participates(info(elements[i]))
    requires info(elements[i]).transitionName in NamesOf(KeptPrefix(elements, i, info), info)
    ensures DupIndex(NamesOf(Kept(elements, info), info)) == |KeptPrefix(elements, i, info)|
    ensures Kept(elements, info)[..|KeptPrefix(elements, i, info)|] == KeptPrefix(elements, i, info)
    ensures |KeptPrefix(elements, i, info)| < |Kept(elements, info)|
  {
    var ce := KeptPrefix(elements, i, info);
    var e := elements[i];
    var n := info(e).transitionName;
    assert KeptPrefix(elements, i + 1, info) == ce + [e];
    KeptPrefixExtends(elements, i + 1, |elements|, info);
    var rest := Kept(elements, info)[|ce| + 1..];
    assert Kept(elements, info) == (ce + [e]) + rest;
    NamesOfAppend(ce, [e], info);
    NamesOfAppend(ce + [e], rest, info);
    assert NamesOf(ce + [e], info) == NamesOf(ce, info) + [n];
    DupIndexSnoc(NamesOf(ce, info), n);
    DupIndexPrefix(NamesOf(ce, info) + [n], NamesOf(rest, info));
  }

  /** The loop step shared by both passes: an element that is skipped, or
      kept with an unused name, extends the kept prefix and keeps its names
      distinct. */
  lemma ScanPasses(elements: seq<ElementId>, i: nat, info: ElementId -> ElementInfo)
    requires i < |elements|
    requires DupIndex(NamesOf(KeptPrefix(elements, i, info), info)) == |KeptPrefix(elements, i, info)|
    requires Participates(info(elements[i])) ==>
               info(elements[i]).transitionName !in NamesOf(KeptPrefix(elements, i, info), info)
    ensures KeptPrefix(elements, i + 1, info) ==
              KeptPrefix(elements, i, info) + (if Participates(info(elements[i])) then [elements[i]] else [])
    ensures DupIndex(NamesOf(KeptPrefix(elements, i + 1, info), info)) == |KeptPrefix(elements, i + 1, info)|
    ensures NamesOf(KeptPrefix(elements, i + 1, info), info) ==
              NamesOf(KeptPrefix(elements, i, info), info)
              + (if Participates(info(elements[i])) then [info(elements[i]).transitionName] else [])
  {
    var ce := KeptPrefix(elements, i, info);
    var e := elements[i];
    if Participates(info(e)) {
      NamesOfAppend(ce, [e], info);
      assert NamesOf(ce + [e], info) == NamesOf(ce, info) + [info(e).transitionName];
      DupIndexSnoc(NamesOf(ce, info), info(e).transitionName);
    } else {
      assert KeptPrefix(elements, i + 1, info) == ce;
    }
  }

  /** What a pass knows after looking at the first `i` configured elements
      without failing: `kept` holds the kept ones, whose names are distinct
      and make up `used`. */
  ghost predicate Scanning(elements: seq<ElementId>, info: ElementId -> ElementInfo, i: nat, kept: seq<ElementId>, used: set<string>)
  {
    && i <= |elements|
    && kept == KeptPrefix(elements, i, info)
    && DupIndex(NamesOf(kept, info)) == |kept|
    && used == SetOf(NamesOf(kept, info))
  }

  /** One iteration of a pass: a skipped element and a kept element with a
      new name keep the pass going; a kept element with a used name makes the
      pass fail with the kept elements so far as the scanned ones. */
  lemma ScanStep(elements: seq<ElementId>, info: ElementId -> ElementInfo, i: nat, kept: seq<ElementId>, used: set<string>)
    requires Scanning(elements, info, i, kept, used) && i < |elements|
    ensures !Participates(info(elements[i])) ==> Scanning(elements, info, i + 1, kept, used)
    ensures Participates(info(elements[i])) && info(elements[i]).transitionName !in used ==>
              Scanning(elements, info, i + 1, kept + [elements[i]], used + {info(elements[i]).transitionName})
    ensures Participates(info(elements[i])) && info(elements[i]).transitionName in used ==>
              && DupIndex(NamesOf(Kept(elements, info), info)) == |kept|
              && Kept(elements, info)[..|kept|] == kept
              && |kept| < |Kept(elements, info)|
  {
    var x := info(elements[i]);
    if Participates(x) && x.transitionName in used {
      ScanFailsHere(elements, i, info);
    } else {
      ScanPasses(elements, i, info);
      if Participates(x) {
        SetOfSnoc(NamesOf(kept, info), x.transitionName);
      }
    }
  }

  /** A pass that looked at every element without failing kept them all. */
  lemma ScanComplete(elements: seq<ElementId>, info: ElementId -> ElementInfo, kept: seq<ElementId>, used: set<string>)
    requires Scanning(elements, info, |elements|, kept, used)
    ensures kept == Kept(elements, info)
    ensures Distinct(NamesOf(kept, info))
    ensures kept[..DupIndex(NamesOf(kept, info))] == kept
  {
    DupIndexDistinct(NamesOf(kept, info));
  }

  // ---------------------------------------------------------------------------
  // The old state
  // ---------------------------------------------------------------------------

  /** The record the old-state pass writes for an element: its image and
      computed styles, and the size and position of the snapshot containing
      block at the origin for the document element or of its border box
      otherwise. */
  function OldCapture(x: ElementInfo, scb: Size): (c: CapturedElement)
    ensures c.oldImage == Some(x.image) && c.oldStyle == Some(x.style)
    ensures x.isDocumentElement ==>
              c.oldWidth == scb.width && c.oldHeight == scb.height && c.oldTransform == Translate(0, 0)
    ensures !x.isDocumentElement ==>
              && c.oldWidth == x.rect.width && c.oldHeight == x.rect.height
              && c.oldTransform == Translate(x.rect.x, x.rect.y)
    ensures c.newElement == None && c.newImage == None && c.styleDefinitions == NoStyleDefinitions
  {
    var r := CaptureRect(x, scb);
    EmptyCapture.(
      oldImage := Some(x.image),
      oldWidth := r.width,
      oldHeight := r.height,
      oldTransform := Translate(r.x, r.y),
      oldStyle := Some(x.style))
  }

  /** The map after the old-state pass has set a record for each of `elems`,
      in order. */
  function StoreOld(ne: NamedMap, elems: seq<ElementId>, info: ElementId -> ElementInfo, scb: Size): NamedMap
  {
    if |elems| == 0 then ne
    else
      var e := elems[|elems| - 1];
      StoreOld(ne, elems[..|elems| - 1], info, scb).Set(info(e).transitionName, OldCapture(info(e), scb))
  }

  /** With distinct names, the map holds for each stored element the record
      captured from it, under its name. */
  lemma {:induction false} StoreOldRecords(ne: NamedMap, elems: seq<ElementId>, info: ElementId -> ElementInfo, scb: Size)
    requires Distinct(NamesOf(elems, info))
    ensures forall i :: 0 <= i < |elems| ==>
              var n := info(elems[i]).transitionName;
              StoreOld(ne, elems, info, scb).Has(n)
              && StoreOld(ne, elems, info, scb).Get(n) == OldCapture(info(elems[i]), scb)
  {
    if |elems| > 0 {
      var init := elems[..|elems| - 1];
      assert NamesOf(elems, info) == NamesOf(init, info) + [info(elems[|elems| - 1]).transitionName];
      DistinctSnoc(NamesOf(init, info), info(elems[|elems| - 1]).transitionName);
      StoreOldRecords(ne, init, info, scb);
      forall i | 0 <= i < |init|
        ensures info(elems[i]).transitionName != info(elems[|elems| - 1]).transitionName
      {
        assert NamesOf(elems, info)[i] != NamesOf(elems, info)[|elems| - 1];
      }
    }
  }

  /** Names not among the stored elements keep their records. */
  lemma {:induction false} StoreOldOthers(ne: NamedMap, elems: seq<ElementId>, info: ElementId -> ElementInfo, scb: Size, n: string)
    requires n !in NamesOf(elems, info)
    ensures StoreOld(ne, elems, info, scb).Has(n) <==> ne.Has(n)
    ensures ne.Has(n) ==> StoreOld(ne, elems, info, scb).Get(n) == ne.Get(n)
  {
    if |elems| > 0 {
      var init := elems[..|elems| - 1];
      assert NamesOf(elems, info) == NamesOf(init, info) + [info(elems[|elems| - 1]).transitionName];
      StoreOldOthers(ne, init, info, scb, n);
    }
  }

  /** Starting from an empty map with distinct names, the map's keys are the
      names, in element order. */
  lemma {:induction false} StoreOldNames(elems: seq<ElementId>, info: ElementId -> ElementInfo, scb: Size)
    requires Distinct(NamesOf(elems, info))
    ensures StoreOld(NoNamedElements, elems, info, scb).names == NamesOf(elems, info)
  {
    if |elems| > 0 {
      var init := elems[..|elems| - 1];
      var last := info(elems[|elems| - 1]).transitionName;
      assert NamesOf(elems, info) == NamesOf(init, info) + [last];
      DistinctSnoc(NamesOf(init, info), last);
      StoreOldNames(init, info, scb);
    }
  }

  /** Step 8 of capturing the old state: sets, in order, a record captured
      from each element under its name. */
  method RecordOldCaptures(t: ViewTransition, captureElements: seq<ElementId>, info: ElementId -> ElementInfo, scb: Size)
    modifies t`namedElements
    ensures t.namedElements == StoreOld(old(t.namedElements), captureElements, info, scb)
  {
    var j := 0;
    while j < |captureElements|
      invariant 0 <= j <= |captureElements|
      invariant t.namedElements == StoreOld(old(t.namedElements), captureElements[..j], info, scb)
    {
      var element := captureElements[j];
      var capture := OldCapture(info(element), scb);
      t.namedElements := t.namedElements.Set(info(element).transitionName, capture);
      assert captureElements[..j + 1][..j] == captureElements[..j];
      j := j + 1;
    }
    assert captureElements[..j] == captureElements;
  }

  /** Step 7 of capturing the old state: walks the elements in order, flags
      each kept one as captured, and stops at the first repeated name, taking
      the flags of the elements kept so far off again. */
  method FlagCaptureElements(doc: Document, scene: Scene) returns (ok: bool, captureElements: seq<ElementId>)
    modifies doc`capturedFlags
    ensures ok <==> Distinct(NamesOf(Kept(scene.elements, scene.info), scene.info))
    ensures ok <==> ScanLength(scene) == |Kept(scene.elements, scene.info)|
    ensures captureElements == Scanned(scene)
    ensures ok ==> doc.capturedFlags == old(doc.capturedFlags) + SetOf(captureElements)
    ensures !ok ==> doc.capturedFlags == old(doc.capturedFlags) - SetOf(captureElements)
  {
    DupIndexDistinct(NamesOf(Kept(scene.elements, scene.info), scene.info));
    var used: set<string> := {};
    captureElements := [];
    var i := 0;
    while i < |scene.elements|
      invariant Scanning(scene.elements, scene.info, i, captureElements, used)
      invariant doc.capturedFlags == old(doc.capturedFlags) + SetOf(captureElements)
    {
      var element := scene.elements[i];
      var x := scene.info(element);
      ScanStep(scene.elements, scene.info, i, captureElements, used);
      if x.transitionName == "none" || !x.visible {
      } else if x.transitionName in used {
        doc.capturedFlags := doc.capturedFlags - SetOf(captureElements);
        return false, captureElements;
      } else {
        SetOfSnoc(captureElements, element);
        used := used + {x.transitionName};
        doc.capturedFlags := doc.capturedFlags + {element};
        captureElements := captureElements + [element];
      }
      i := i + 1;
    }
    ScanComplete(scene.elements, scene.info, captureElements, used);
    ok := true;
  }

  /** Capture the old state. Freezes the snapshot containing block size,
      scans the configured elements, flagging each kept one, and fails on the
      first repeated name; otherwise records every kept element under its
      name. Either way no element the pass flagged is flagged afterwards. */
  method CaptureTheOldState(doc: Document, t: ViewTransition, scene: Scene) returns (ok: bool)
    modifies t`initialSnapshotContainingBlockSize, t`namedElements, doc`capturedFlags
    ensures t.initialSnapshotContainingBlockSize == Some(doc.snapshotContainingBlockSize)
    ensures ok <==> Distinct(NamesOf(Kept(scene.elements, scene.info), scene.info))
    ensures ok <==> ScanLength(scene) == |Kept(scene.elements, scene.info)|
    ensures ok ==>
              t.namedElements == StoreOld(old(t.namedElements), Kept(scene.elements, scene.info), scene.info, doc.snapshotContainingBlockSize)
    ensures !ok ==> t.namedElements == old(t.namedElements)
    ensures doc.capturedFlags == old(doc.capturedFlags) - SetOf(Scanned(scene))
  {
    t.initialSnapshotContainingBlockSize := Some(doc.snapshotContainingBlockSize);
    var captureElements;
    ok, captureElements := FlagCaptureElements(doc, scene);
    if !ok {
      return;
    }
    assert captureElements == Kept(scene.elements, scene.info);
    RecordOldCaptures(t, captureElements, scene.info, doc.snapshotContainingBlockSize);
    doc.capturedFlags := doc.capturedFlags - SetOf(captureElements);
  }

  /** The records a successful old-state pass leaves in a fresh transition:
      one per kept element, keyed by its name, in element order, holding the
      capture of that element. */
  lemma OldStateRecords(scene: Scene, scb: Size)
    requires Distinct(NamesOf(Kept(scene.elements, scene.info), scene.info))
    ensures var ne := StoreOld(NoNamedElements, Kept(scene.elements, scene.info), scene.info, scb);
            && ne.names == NamesOf(Kept(scene.elements, scene.info), scene.info)
            && forall e :: e in Kept(scene.elements, scene.info) ==>
                 ne.Has(scene.info(e).transitionName) && ne.Get(scene.info(e).transitionName) == OldCapture(scene.info(e), scb)
  {
    var kept := Kept(scene.elements, scene.info);
    StoreOldNames(kept, scene.info, scb);
    StoreOldRecords(NoNamedElements, kept, scene.info, scb);
    forall e | e in kept
      ensures StoreOld(NoNamedElements, kept, scene.info, scb).Get(scene.info(e).transitionName)
              == OldCapture(scene.info(e), scb)
    {
      var i :| 0 <= i < |kept| && kept[i] == e;
    }
  }

  // ---------------------------------------------------------------------------
  // The new state
  // ---------------------------------------------------------------------------

  /** The record the new-state pass leaves for an element: the existing one
      for its name, or a fresh struct, with the element and its image set. */
  function NewCapture(prev: NamedMap, e: ElementId, x: ElementInfo): CapturedElement
  {
    var base := if prev.Has(x.transitionName) then prev.Get(x.transitionName) else EmptyCapture;
    base.(newElement := Some(e), newImage := Some(x.image))
  }

  /** The map after the new-state pass has dealt with each of `elems`, in
      order. */
  function StoreNew(ne: NamedMap, elems: seq<ElementId>, info: ElementId -> ElementInfo): NamedMap
  {
    if |elems| == 0 then ne
    else
      var e := elems[|elems| - 1];
      var prev := StoreNew(ne, elems[..|elems| - 1], info);
      prev.Set(info(e).transitionName, NewCapture(prev, e, info(e)))
  }

  /** The record a new-state pass over `elems` leaves for the element at
      `i`: the old-state fields the name had (or a fresh struct's for a name
      that had none) with the element and its image added. */
  ghost predicate StoredNew(ne: NamedMap, elems: seq<ElementId>, info: ElementId -> ElementInfo, i: nat)
    requires i < |elems|
  {
    var n := info(elems[i]).transitionName;
    var base := if ne.Has(n) then ne.Get(n) else EmptyCapture;
    && StoreNew(ne, elems, info).Has(n)
    && StoreNew(ne, elems, info).Get(n) == base.(newElement := Some(elems[i]), newImage := Some(info(elems[i]).image))
  }

  lemma {:induction false} StoreNewRecord(ne: NamedMap, elems: seq<ElementId>, info: ElementId -> ElementInfo, i: nat)
    requires Distinct(NamesOf(elems, info)) && i < |elems|
    ensures StoredNew(ne, elems, info, i)
  {
    var init := elems[..|elems| - 1];
    var last := info(elems[|elems| - 1]).transitionName;
    assert NamesOf(elems, info) == NamesOf(init, info) + [last];
    DistinctSnoc(NamesOf(init, info), last);
    if i < |init| {
      assert NamesOf(elems, info)[i] != NamesOf(elems, info)[|elems| - 1];
      assert init[i] == elems[i];
      StoreNewRecord(ne, init, info, i);
    } else {
      StoreNewOthers(ne, init, info, last);
    }
  }

  /** With distinct names, each stored element's record keeps the old-state
      fields it had (or a fresh struct's for a name that had none) and gains
      the element and its image. */
  lemma StoreNewRecords(ne: NamedMap, elems: seq<ElementId>, info: ElementId -> ElementInfo)
    requires Distinct(NamesOf(elems, info))
    ensures forall i :: 0 <= i < |elems| ==> StoredNew(ne, elems, info, i)
  {
    forall i | 0 <= i < |elems|
      ensures StoredNew(ne, elems, info, i)
    {
      StoreNewRecord(ne, elems, info, i);
    }
  }

  /** Names not among the stored elements keep their records. */
  lemma {:induction false} StoreNewOthers(ne: NamedMap, elems: seq<ElementId>, info: ElementId -> ElementInfo, n: string)
    requires n !in NamesOf(elems, info)
    ensures StoreNew(ne, elems, info).Has(n) <==> ne.Has(n)
    ensures ne.Has(n) ==> StoreNew(ne, elems, info).Get(n) == ne.Get(n)
  {
    if |elems| > 0 {
      var init := elems[..|elems| - 1];
      assert NamesOf(elems, info) == NamesOf(init, info) + [info(elems[|elems| - 1]).transitionName];
      StoreNewOthers(ne, init, info, n);
    }
  }

  /** Setting a key twice is setting it once to the second value. */
  lemma SetTwice(ne: NamedMap, n: string, a: CapturedElement, b: CapturedElement)
    ensures ne.Set(n, a).Set(n, b) == ne.Set(n, b)
  {
  }

  /** Steps 4.7 to 4.x of capturing the new state: creates the record for the
      element's name if there is none, then stores the element and its image
      in it. */
  method SetNewElement(t: ViewTransition, element: ElementId, x: ElementInfo)
    modifies t`namedElements
    ensures t.namedElements == old(t.namedElements).Set(x.transitionName, NewCapture(old(t.namedElements), element, x))
  {
    ghost var prev := t.namedElements;
    if !t.namedElements.Has(x.transitionName) {
      t.namedElements := t.namedElements.Set(x.transitionName, EmptyCapture);
      SetTwice(prev, x.transitionName, EmptyCapture, NewCapture(prev, element, x));
    }
    var capture := t.namedElements.Get(x.transitionName);
    t.namedElements := t.namedElements.Set(x.transitionName, capture.(newElement := Some(element), newImage := Some(x.image)));
  }

  /** Capture the new state. Scans the configured elements and fails on the
      first repeated name; records passed before the failure keep the
      changes already made to them. For each kept element it creates the
      record if its name has none and stores the element and its image. */
  method CaptureTheNewState(t: ViewTransition, scene: Scene) returns (ok: bool)
    modifies t`namedElements
    ensures ok <==> Distinct(NamesOf(Kept(scene.elements, scene.info), scene.info))
    ensures ok <==> ScanLength(scene) == |Kept(scene.elements, scene.info)|
    ensures t.namedElements == StoreNew(old(t.namedElements), Scanned(scene), scene.info)
  {
    DupIndexDistinct(NamesOf(Kept(scene.elements, scene.info), scene.info));
    var used: set<string> := {};
    ghost var kept: seq<ElementId> := [];
    var i := 0;
    while i < |scene.elements|
      invariant Scanning(scene.elements, scene.info, i, kept, used)
      invariant t.namedElements == StoreNew(old(t.namedElements), kept, scene.info)
    {
      var element := scene.elements[i];
      var x := scene.info(element);
      ScanStep(scene.elements, scene.info, i, kept, used);
      if x.transitionName == "none" || !x.visible {
      } else if x.transitionName in used {
        return false;
      } else {
        used := used + {x.transitionName};
        SetNewElement(t, element, x);
        assert (kept + [element])[..|kept|] == kept;
        kept := kept + [element];
      }
      i := i + 1;
    }
    ScanComplete(scene.elements, scene.info, kept, used);
    ok := true;
  }
}

=== FILE: common.dfy ===
/** Values and list operations shared by the whole model: the optional value,
    the exceptions the script throws, and the array built-ins it relies on
    (`indexOf`, `splice`). */
module Common {

  datatype Option<T> = None | Some(value: T)

  /** The exceptions the modelled code can throw. None of them is caught by
      the script: each one ends the algorithm that raised it. */
  datatype Error =
    | InvalidPhase          // 'Invalid phase' from the phase setter
    | SkipAssertion         // skip the view transition on a "done" transition
    | ClearAssertion        // clear a transition that is not the active one
    | CallAssertion         // call the update callback outside "done"/"pending-capture"
    | GlobalObjectQueued    // call the update callback given the global object
    | CallbackThrew         // the caller's update callback threw synchronously
    | NullActive            // TypeError: a property read on a null active transition
    | MissingImages         // a captured element with neither an old nor a new image
    | InvalidHexColor       // 'Invalid HEX color.'

  /** How a step ended: normally, or by throwing. */
  datatype Outcome = Normal | Thrown(error: Error)

  /** `Array.prototype.indexOf`: the first index holding `x`, or -1. */
  function IndexOf<T(==)>(s: seq<T>, x: T): (i: int)
    ensures -1 <= i < |s|
    ensures i == -1 <==> x !in s
    ensures 0 <= i ==> s[i] == x && x !in s[..i]
  {
    if |s| == 0 then -1
    else if s[0] == x then 0
    else
      var j := IndexOf(s[1..], x);
      if j == -1 then -1
      else
        assert s[..j + 1] == [s[0]] + s[1..][..j];
        j + 1
  }

  /** `splice(indexOf(x), 1)` guarded by `indexOf(x) !== -1`: drops the first
      occurrence of `x`, if any. */
  function RemoveFirst<T(==)>(s: seq<T>, x: T): seq<T>
  {
    var i := IndexOf(s, x);
    if i == -1 then s else s[..i] + s[i + 1..]
  }

  /** Removing the first occurrence takes exactly one copy of `x` out of the
      multiset of elements, and none when `x` is absent. */
  lemma RemoveFirstCount<T>(s: seq<T>, x: T)
    ensures multiset(RemoveFirst(s, x)) == multiset(s) - multiset{x}
    ensures |RemoveFirst(s, x)| == if x in s then |s| - 1 else |s|
  {
    var i := IndexOf(s, x);
    if i != -1 {
      assert s == s[..i] + [s[i]] + s[i + 1..];
      calc {
        multiset(s);
        multiset(s[..i]) + multiset{x} + multiset(s[i + 1..]);
        multiset(s[..i] + s[i + 1..]) + multiset{x};
      }
    } else {
      assert multiset(s)[x] == 0;
    }
  }

  /** The elements other than the removed one keep their relative order: the
      result is what precedes the first `x` followed by what follows it. */
  lemma RemoveFirstKeepsOrder<T>(s: seq<T>, x: T)
    requires x in s
    ensures exists i :: 0 <= i < |s| && s[i] == x && x !in s[..i]
              && RemoveFirst(s, x) == s[..i] + s[i + 1..]
  {
    var i := IndexOf(s, x);
    assert 0 <= i < |s| && s[i] == x && x !in s[..i];
  }

  /** Appending a new element and then removing it gives back the original. */
  lemma {:induction false} RemoveFirstAfterAppend<T>(s: seq<T>, x: T)
    requires x !in s
    ensures RemoveFirst(s + [x], x) == s
  {
    var i := IndexOf(s + [x], x);
    assert i == |s|;
    assert (s + [x])[..|s|] == s;
  }

  predicate Distinct<T(==)>(s: seq<T>)
  {
    forall i, j :: 0 <= i < j < |s| ==> s[i] != s[j]
  }

  /** A list extended by one element is duplicate-free exactly when the list
      is and the element is new. */
  lemma DistinctSnoc<T>(s: seq<T>, x: T)
    ensures Distinct(s + [x]) <==> Distinct(s) && x !in s
  {
    assert forall i :: 0 <= i < |s| ==> (s + [x])[i] == s[i];
    assert (s + [x])[|s|] == x;
  }

  /** The elements of a list, as a set. */
  function SetOf<T>(s: seq<T>): set<T>
  {
    set x | x in s
  }

  lemma SetOfSnoc<T>(s: seq<T>, x: T)
    ensures SetOf(s + [x]) == SetOf(s) + {x}
  {
  }
}

=== FILE: document.dfy ===
/** The document-wide state the view-transition algorithms share: the active
    transition, rendering suppression, the dynamic style sheet, the show-tree
    flag with the transition roots it attaches, the update callback queue and
    the "captured in a view transition" flags of elements. */
module Documents {
  import opened Common
  import opened Scene
  import opened StyleSheets
  import opened Transitions

  /** An entry of the update callback queue. Skipping a transition whose
      update callback has not run yet appends the global object (the `this`
      of a top-level arrow function) rather than the transition. */
  datatype QueueEntry = Queued(t: ViewTransition) | GlobalObject

  /** The transitions held by queue entries. */
  function QueuedTransitions(q: seq<QueueEntry>): set<ViewTransition>
  {
    set e | e in q && e.Queued? :: e.t
  }

  /** The update callback done promises of the transitions held by queue
      entries. */
  function QueuedDonePromises(q: seq<QueueEntry>): set<object>
  {
    set e | e in q && e.Queued? :: e.t.updateCallbackDone
  }

  class Document {
    /** `document.activeViewTransition`. */
    var active: ViewTransition?
    /** Rendering suppression for view transitions. */
    var renderingSuppression: bool
    /** The dynamic view transition style sheet. */
    const sheet: StyleSheet
    /** Show view transition tree. */
    var showTree: bool
    /** The transition roots currently appended to the document element. */
    var attachedRoots: set<ViewTransition>
    /** The update callback queue. */
    var queue: seq<QueueEntry>
    /** The elements whose `data-captured-in-a-view-transition` is set. */
    var capturedFlags: set<ElementId>
    /** The snapshot containing block size, read once from the window when
        the script loads and never updated afterwards. */
    const snapshotContainingBlockSize: Size

    /** The sheet mirrors its rules, an active transition is not done, and
        every transition the document refers to keeps three distinct
        promises. */
    predicate Valid()
      reads this, sheet, active
    {
      && sheet.Valid()
      && (active != null ==> active.Valid() && active.phase != Done)
      && (forall e :: e in queue && e.Queued? ==> e.t.Valid())
    }

    constructor (size: Size)
      ensures Valid() && fresh(sheet)
      ensures active == null && !renderingSuppression && !showTree
      ensures attachedRoots == {} && queue == [] && capturedFlags == {}
      ensures sheet.rules == [] && snapshotContainingBlockSize == size
    {
      active := null;
      renderingSuppression := false;
      sheet := new StyleSheet();
      showTree := false;
      attachedRoots := {};
      queue := [];
      capturedFlags := {};
      snapshotContainingBlockSize := size;
    }
  }

  /** The attached roots `roots`, once the tree is shown from `roots0` with
      `active` the active transition: its root is attached and no other root
      changes; with no active transition nothing changes. */
  predicate RootShown(roots: set<ViewTransition>, roots0: set<ViewTransition>, active: ViewTransition?)
  {
    if active == null then roots == roots0
    else active in roots && roots - {active} == roots0 - {active}
  }

  /** Sets the show-tree flag and appends the active transition's root to the
      document element, or removes it from there. Both branches read the
      active transition, so with none active the setter throws after the flag
      has changed. */
  method SetShowViewTransitionTree(doc: Document, value: bool) returns (outcome: Outcome)
    modifies doc`showTree, doc`attachedRoots
    ensures doc.showTree == value
    ensures old(doc.active) == null ==> outcome == Thrown(NullActive) && doc.attachedRoots == old(doc.attachedRoots)
    ensures old(doc.active) != null ==>
              && outcome == Normal
              && (doc.active in doc.attachedRoots <==> value)
              && doc.attachedRoots - {doc.active} == old(doc.attachedRoots) - {doc.active}
  {
    doc.showTree := value;
    if doc.active == null {
      return Thrown(NullActive);
    }
    if value {
      doc.attachedRoots := doc.attachedRoots + {doc.active};
    } else if doc.active in doc.attachedRoots {
      doc.attachedRoots := doc.attachedRoots - {doc.active};
    }
    outcome := Normal;
  }

  /** Appends an entry to the update callback queue. The global task it also
      queues to flush the queue is the separate flush step. */
  method ScheduleTheUpdateCallback(doc: Document, entry: QueueEntry)
    modifies doc`queue
    ensures doc.queue == old(doc.queue) + [entry]
  {
    doc.queue := doc.queue + [entry];
  }
}

=== FILE: invert_color.dfy ===
/** The demo page's `invertColor`: the complement of a CSS hex colour, in the
    `#rrggbb` form, accepting `#rgb` and a missing `#`. */
module Colors {
  import opened Common

  /** What `invertColor` returns, or the error it throws. */
  datatype ColorResult = Inverted(value: string) | Failed(error: Error)

  predicate IsHexDigit(c: char)
  {
    ('0' <= c <= '9') || ('a' <= c <= 'f') || ('A' <= c <= 'F')
  }

  predicate IsHexString(s: string)
  {
    forall i :: 0 <= i < |s| ==> IsHexDigit(s[i])
  }

  /** The value of a hexadecimal digit, either case. */
  function DigitValue(c: char): (d: nat)
    requires IsHexDigit(c)
    ensures d < 16
  {
    if '0' <= c <= '9' then c as nat - '0' as nat
    else if 'a' <= c <= 'f' then c as nat - 'a' as nat + 10
    else c as nat - 'A' as nat + 10
  }

  /** The digit `Number.prototype.toString(16)` writes for `d`: lower case. */
  function HexChar(d: nat): (c: char)
    requires d < 16
    ensures IsHexDigit(c) && DigitValue(c) == d
    ensures !('A' <= c <= 'F')
  {
    if d < 10 then ('0' as nat + d) as char else ('a' as nat + d - 10) as char
  }

  /** `n.toString(16)` for a non-negative integer: no leading zeros, lower
      case. */
  function ToHex(n: nat): (s: string)
    decreases n
  {
    if n < 16 then [HexChar(n)] else ToHex(n / 16) + [HexChar(n % 16)]
  }

  /** `s.padStart(width, fill)` with a one-character fill. */
  function PadStart(s: string, width: nat, fill: char): (r: string)
    ensures |r| == if |s| < width then width else |s|
  {
    if |s| < width then seq(width - |s|, _ => fill) + s else s
  }

  /** Padding keeps the string as the end of the result and fills the front
      with the fill character; a string already as wide is returned as it
      is. */
  lemma PadStartContents(s: string, width: nat, fill: char)
    ensures |s| >= width ==> PadStart(s, width, fill) == s
    ensures var r := PadStart(s, width, fill);
            r[|r| - |s|..] == s && forall i :: 0 <= i < |r| - |s| ==> r[i] == fill
  {
  }

  /** A number below 256 printed in hexadecimal and padded to two digits is
      its two lower-case hexadecimal digits. */
  lemma PaddedByte(n: nat)
    requires n < 256
    ensures PadStart(ToHex(n), 2, '0') == [HexChar(n / 16), HexChar(n % 16)]
  {
    if n < 16 {
      assert ToHex(n) == [HexChar(n)];
      assert n / 16 == 0 && n % 16 == n;
      assert HexChar(0) == '0';
    } else {
      assert ToHex(n / 16) == [HexChar(n / 16)];
    }
  }

  /** `parseInt(s, 16)` on a two-character slice whose characters are not
      white space or signs: the value of its leading hexadecimal digits, or
      NaN (`None`) when it does not start with one. */
  function ParseIntHex(s: string): (r: Option<nat>)
    requires |s| == 2
    ensures r.Some? ==> r.value < 256
    ensures r.None? <==> !IsHexDigit(s[0])
  {
    if !IsHexDigit(s[0]) then None
    else if !IsHexDigit(s[1]) then Some(DigitValue(s[0]))
    else Some(16 * DigitValue(s[0]) + DigitValue(s[1]))
  }

  /** One colour component inverted: `(255 - parseInt(s, 16)).toString(16)`
      padded to two digits, where NaN prints as "NaN". */
  function InvertChannel(s: string): (r: string)
    requires |s| == 2
    ensures 2 <= |r|
  {
    match ParseIntHex(s)
    case None => "NaN"
    case Some(v) => PadStart(ToHex(255 - v), 2, '0')
  }

  /** `hex.indexOf('#') === 0`: the first `#` is the first character. */
  predicate StartsWithHash(hex: string)
  {
    IndexOf(hex, '#') == 0
  }

  /** The index test is the test of the first character. */
  lemma StartsWithHashIsFirst(hex: string)
    ensures StartsWithHash(hex) <==> |hex| > 0 && hex[0] == '#'
  {
  }

  /** The input without a leading `#`. */
  function StripHash(hex: string): (h: string)
    ensures |hex| > 0 && hex[0] == '#' ==> h == hex[1..]
    ensures !(|hex| > 0 && hex[0] == '#') ==> h == hex
  {
    StartsWithHashIsFirst(hex);
    if StartsWithHash(hex) then hex[1..] else hex
  }

  /** Three digits become six, each repeated; any other length stays. */
  function Expand(h: string): (e: string)
    ensures |h| == 3 ==> |e| == 6 && forall i :: 0 <= i < 6 ==> e[i] == h[i / 2]
    ensures |h| != 3 ==> e == h
  {
    if |h| == 3 then [h[0], h[0], h[1], h[1], h[2], h[2]] else h
  }

  function InvertColor(hex: string): (r: ColorResult)
    ensures r.Failed? <==> |StripHash(hex)| != 3 && |StripHash(hex)| != 6
    ensures r.Failed? ==> r.error == InvalidHexColor
    ensures r.Inverted? ==> 7 <= |r.value| && r.value[0] == '#'
  {
    var h := Expand(StripHash(hex));
    if |h| != 6 then Failed(InvalidHexColor)
    else Inverted("#" + InvertChannel(h[0..2]) + InvertChannel(h[2..4]) + InvertChannel(h[4..6]))
  }

  /** The six digits `invertColor` works on, for an input of hexadecimal
      digits: the input without its `#`, three digits doubled. */
  function Digits(hex: string): string
  {
    Expand(StripHash(hex))
  }

  // ---------------------------------------------------------------------------
  // Properties
  // ---------------------------------------------------------------------------

  /** A colour whose digits number six inverts component by component. */
  lemma InvertColorValue(hex: string)
    requires |Digits(hex)| == 6
    ensures InvertColor(hex).Inverted?
    ensures InvertColor(hex).value
            == "#" + InvertChannel(Digits(hex)[0..2]) + InvertChannel(Digits(hex)[2..4]) + InvertChannel(Digits(hex)[4..6])
  {
  }

  /** A component whose first character is not a hexadecimal digit prints as
      "NaN", which makes the result longer than seven characters. */
  lemma NonHexChannelIsNaN(hex: string)
    requires |Digits(hex)| == 6 && !IsHexDigit(Digits(hex)[0])
    ensures InvertColor(hex).Inverted? && InvertColor(hex).value[1..4] == "NaN"
    ensures |InvertColor(hex).value| > 7
  {
    InvertColorValue(hex);
    assert InvertChannel(Digits(hex)[0..2]) == "NaN";
  }

  /** Inverting a component of two hexadecimal digits complements each digit
      (to 15) and writes the result in lower case. */
  lemma InvertChannelComplements(s: string)
    requires |s| == 2 && IsHexString(s)
    ensures InvertChannel(s) == [HexChar(15 - DigitValue(s[0])), HexChar(15 - DigitValue(s[1]))]
  {
    var a, b := DigitValue(s[0]), DigitValue(s[1]);
    var n := 255 - (16 * a + b);
    assert n == 16 * (15 - a) + (15 - b);
    assert n / 16 == 15 - a && n % 16 == 15 - b;
    PaddedByte(n);
  }

  /** The lower-case form of a hexadecimal string. */
  function Lower(s: string): (r: string)
    requires IsHexString(s)
    ensures |r| == |s| && IsHexString(r)
    ensures forall i :: 0 <= i < |s| ==> r[i] == HexChar(DigitValue(s[i]))
  {
    seq(|s|, i requires 0 <= i < |s| => HexChar(DigitValue(s[i])))
  }

  /** Each digit replaced by its complement to 15, in lower case. */
  function Complement(s: string): (r: string)
    requires IsHexString(s)
    ensures |r| == |s| && IsHexString(r)
    ensures forall i :: 0 <= i < |s| ==> r[i] == HexChar(15 - DigitValue(s[i]))
  {
    seq(|s|, i requires 0 <= i < |s| => HexChar(15 - DigitValue(s[i])))
  }

  /** Complementing twice lowers the case and changes nothing else. */
  lemma ComplementTwice(s: string)
    requires IsHexString(s)
    ensures Complement(Complement(s)) == Lower(s)
  {
    var c := Complement(s);
    var cc := Complement(c);
    var l := Lower(s);
    forall i | 0 <= i < |s|
      ensures cc[i] == l[i]
    {
      assert DigitValue(c[i]) == 15 - DigitValue(s[i]);
    }
    assert cc == l;
  }

  /** The component at `k` of a string of hexadecimal digits inverts to the
      complement of its two digits. */
  lemma ChannelAt(h: string, k: nat)
    requires IsHexString(h) && k + 2 <= |h|
    ensures InvertChannel(h[k..k + 2]) == Complement(h)[k..k + 2]
  {
    var s := h[k..k + 2];
    var c := Complement(h);
    assert s[0] == h[k] && s[1] == h[k + 1];
    assert IsHexDigit(s[0]) && IsHexDigit(s[1]);
    InvertChannelComplements(s);
    assert c[k..k + 2] == [c[k], c[k + 1]];
  }

  /** Six characters after a `#` are the `#` and their three pairs. */
  lemma SplitSix(c: string)
    requires |c| == 6
    ensures "#" + c == "#" + c[0..2] + c[2..4] + c[4..6]
  {
    assert c == c[0..2] + c[2..4] + c[4..6];
  }

  /** Six hexadecimal digits invert, component by component, to their
      complement. */
  lemma InvertedComponents(h: string)
    requires |h| == 6 && IsHexString(h)
    ensures "#" + InvertChannel(h[0..2]) + InvertChannel(h[2..4]) + InvertChannel(h[4..6]) == "#" + Complement(h)
  {
    var c := Complement(h);
    ChannelAt(h, 0);
    ChannelAt(h, 2);
    ChannelAt(h, 4);
    SplitSix(c);
  }

  /** A valid colour of hexadecimal digits inverts to `#` followed by the
      complement of its six digits. */
  lemma {:induction false} InvertColorDigits(hex: string)
    requires |Digits(hex)| == 6 && IsHexString(Digits(hex))
    ensures InvertColor(hex) == Inverted("#" + Complement(Digits(hex)))
  {
    InvertColorValue(hex);
    InvertedComponents(Digits(hex));
  }

  /** Inverting twice gives back the colour in its six-digit, lower-case
      `#rrggbb` form. */
  lemma {:induction false} InvertTwice(hex: string)
    requires |Digits(hex)| == 6 && IsHexString(Digits(hex))
    ensures InvertColor(hex).Inverted?
    ensures InvertColor(InvertColor(hex).value) == Inverted("#" + Lower(Digits(hex)))
  {
    InvertColorDigits(hex);
    var v := "#" + Complement(Digits(hex));
    assert StripHash(v) == v[1..] == Complement(Digits(hex));
    InvertColorDigits(v);
    ComplementTwice(Digits(hex));
  }

  /** The `#` is optional: a colour and the same colour with `#` in front
      invert alike. */
  lemma HashIsOptional(h: string)
    requires |h| == 0 || h[0] != '#'
    ensures InvertColor("#" + h) == InvertColor(h)
  {
    assert StripHash("#" + h) == h;
  }

  /** The three-digit shorthand inverts as its six-digit expansion. */
  lemma ShorthandInvertsAsExpansion(r: char, g: char, b: char)
    ensures InvertColor([r, g, b]) == InvertColor([r, r, g, g, b, b])
  {
    if r == '#' {
      assert StripHash([r, g, b]) == [g, b];
      assert StripHash([r, r, g, g, b, b]) == [r, g, g, b, b];
    } else {
      assert StripHash([r, g, b]) == [r, g, b];
      assert StripHash([r, r, g, g, b, b]) == [r, r, g, g, b, b];
    }
  }
}

=== FILE: lifecycle.dfy ===
/** The algorithms that move a view transition through its phases: starting
    and skipping it, the update callback queue, setting it up and activating
    it, the per-frame step and clearing it. Every algorithm runs to its end
    (or to the exception it throws) before the next one starts; the steps the
    script queues as microtasks or animation frames are separate methods that
    the page's event loop calls in order. */
module Lifecycle {
  import opened Common
  import opened Scene
  import opened StyleSheets
  import opened Promises
  import opened Transitions
  import opened Documents
  import opened Captures
  import opened PseudoElements

  // ---------------------------------------------------------------------------
  // Clearing and skipping
  // ---------------------------------------------------------------------------

  /** The new elements recorded under the names `names`. */
  function NewElementsAmong(ne: NamedMap, names: seq<string>): set<ElementId>
  {
    set n | n in names && ne.Has(n) && ne.Get(n).newElement.Some? :: ne.Get(n).newElement.value
  }

  /** The new elements of every record are those recorded under the map's
      names. */
  lemma NewElementsAmongAll(ne: NamedMap)
    ensures NewElementsAmong(ne, ne.names) == ne.NewElements()
  {
  }

  /** What clearing the active transition `t` does to the document. */
  twostate predicate Cleared(doc: Document, t: ViewTransition)
    reads doc, t
  {
    && doc.active == null
    && doc.capturedFlags == old(doc.capturedFlags) - t.namedElements.NewElements()
    && !doc.showTree
    && t !in doc.attachedRoots
    && doc.attachedRoots - {t} == old(doc.attachedRoots) - {t}
  }

  /** Step 3.1 of clearing: takes the captured flag off each record's new
      element. The rules of step 3.2 stay in the sheet: that loop binds each
      entry's index where it means the rule, and an index is never one of the
      sheet's rules. */
  method UnflagNewElements(doc: Document, t: ViewTransition)
    modifies doc`capturedFlags
    ensures doc.capturedFlags == old(doc.capturedFlags) - t.namedElements.NewElements()
  {
    var names := t.namedElements.names;
    var i := 0;
    while i < |names|
      invariant i <= |names|
      invariant doc.capturedFlags == old(doc.capturedFlags) - NewElementsAmong(t.namedElements, names[..i])
    {
      var c := t.namedElements.Get(names[i]);
      assert names[..i + 1] == names[..i] + [names[i]];
      if c.newElement.Some? {
        doc.capturedFlags := doc.capturedFlags - {c.newElement.value};
      }
      i := i + 1;
    }
    assert names[..i] == names;
    NewElementsAmongAll(t.namedElements);
  }

  /** Clearing a view transition: asserts it is the active one, unflags its
      new elements, hides the transition tree and forgets the active
      transition. The dynamic style sheet keeps every rule. */
  method ClearViewTransition(doc: Document, t: ViewTransition) returns (outcome: Outcome)
    modifies doc`capturedFlags, doc`showTree, doc`attachedRoots, doc`active
    ensures old(doc.active) != t ==> outcome == Thrown(ClearAssertion) && unchanged(doc)
    ensures old(doc.active) == t ==> outcome == Normal && Cleared(doc, t)
    ensures doc.sheet.rules == old(doc.sheet.rules)
  {
    if t != doc.active {
      return Thrown(ClearAssertion);
    }
    UnflagNewElements(doc, t);
    outcome := SetShowViewTransitionTree(doc, false);
    doc.active := null;
  }

  /** What skipping the not yet done transition `t` does: `t` is done and no
      longer active, rendering is no longer suppressed, its ready promise is
      rejected and its two other promises are fulfilled; the global object
      joins the update callback queue if the update callback had not been
      called; and `t` is cleared if it was the active transition. */
  twostate predicate Skipped(doc: Document, t: ViewTransition)
    reads doc, t, t.ready, t.updateCallbackDone, t.finished
  {
    && t.phase == Done
    && !doc.renderingSuppression
    && doc.queue == old(doc.queue) + (if old(t.phase) == PendingCapture then [GlobalObject] else [])
    && t.ready.status == Rejected && t.ready.settled
    && t.updateCallbackDone.status == Fulfilled && t.updateCallbackDone.settled
    && t.finished.status == Fulfilled && t.finished.settled
    && (old(doc.active) == t ==> Cleared(doc, t))
    && (old(doc.active) != t ==>
          && doc.active == old(doc.active)
          && doc.capturedFlags == old(doc.capturedFlags)
          && doc.showTree == old(doc.showTree)
          && doc.attachedRoots == old(doc.attachedRoots))
  }

  /** Skipping a view transition. The transition is pushed on the update
      callback queue as the global object rather than as itself. The reason
      is dropped, since the promise resolvers take no argument. */
  method SkipTheViewTransition(doc: Document, t: ViewTransition) returns (outcome: Outcome)
    requires t.Valid()
    modifies doc`queue, doc`renderingSuppression, doc`capturedFlags, doc`showTree, doc`attachedRoots, doc`active
    modifies t`phase, t.ready, t.updateCallbackDone, t.finished
    ensures old(t.phase) == Done ==>
              && outcome == Thrown(SkipAssertion)
              && unchanged(doc, t, t.ready, t.updateCallbackDone, t.finished)
    ensures old(t.phase) != Done ==> outcome == Normal && Skipped(doc, t) && doc.active != t
  {
    if t.phase == Done {
      return Thrown(SkipAssertion);
    }
    ReleaseDocument(doc, t);
    t.phase := Done;
    SettleSkippedPromises(t);
    outcome := Normal;
  }

  /** Steps 3 to 6 of skipping, on the document: queues the global object if
      the update callback has not been called, ends rendering suppression and
      clears `t` if it is the active transition. */
  method ReleaseDocument(doc: Document, t: ViewTransition)
    modifies doc`queue, doc`renderingSuppression, doc`capturedFlags, doc`showTree, doc`attachedRoots, doc`active
    ensures !doc.renderingSuppression && doc.active != t
    ensures doc.queue == old(doc.queue) + (if t.phase == PendingCapture then [GlobalObject] else [])
    ensures old(doc.active) == t ==> Cleared(doc, t)
    ensures old(doc.active) != t ==>
              && doc.active == old(doc.active)
              && doc.capturedFlags == old(doc.capturedFlags)
              && doc.showTree == old(doc.showTree)
              && doc.attachedRoots == old(doc.attachedRoots)
  {
    BeforeUpdateCallbackCalled(t.phase);
    if Before(t.phase, UpdateCallbackCalled) {
      ScheduleTheUpdateCallback(doc, GlobalObject);
    }
    doc.renderingSuppression := false;
    if doc.active == t {
      var _ := ClearViewTransition(doc, t);
    }
  }

  /** Steps 7 and 8 of skipping: rejects the ready promise, fulfils the update
      callback done promise, and then settles the finished promise after it. */
  method SettleSkippedPromises(t: ViewTransition)
    requires t.Valid()
    modifies t.ready, t.updateCallbackDone, t.finished
    ensures t.ready.status == Rejected && t.ready.settled
    ensures t.updateCallbackDone.status == Fulfilled && t.updateCallbackDone.settled
    ensures t.finished.status == Fulfilled && t.finished.settled
  {
    t.ready.Reject();
    t.updateCallbackDone.Resolve();
    if t.updateCallbackDone.status == Fulfilled {
      t.finished.Resolve();
    } else {
      // The script rejects the finished promise here; the status was just set
      // to fulfilled, so this branch is never taken.
      assert false;
    }
  }

  /** `skipTransition()`: skips the transition unless it is done. It ignores
      the reason its callers pass. */
  method SkipTransition(doc: Document, t: ViewTransition)
    requires t.Valid()
    modifies doc`queue, doc`renderingSuppression, doc`capturedFlags, doc`showTree, doc`attachedRoots, doc`active
    modifies t`phase, t.ready, t.updateCallbackDone, t.finished
    ensures old(t.phase) == Done ==> unchanged(doc, t, t.ready, t.updateCallbackDone, t.finished)
    ensures old(t.phase) != Done ==> Skipped(doc, t)
    ensures doc.active != t || old(t.phase) == Done
  {
    if t.phase != Done {
      var _ := SkipTheViewTransition(doc, t);
    }
  }

  // ---------------------------------------------------------------------------
  // Starting a transition
  // ---------------------------------------------------------------------------

  /** `document.startViewTransition(updateCallback)`. A callback that is not
      provided (or is falsy) leaves the update callback null. On a hidden
      document the new transition is skipped at once and returned without
      becoming active. Otherwise the previously active transition, if any, is
      skipped and the new one becomes active; the pending operations it
      queues are the separate per-tick step. */
  method StartViewTransition(doc: Document, callback: Option<UpdateCallback>, hidden: bool) returns (t: ViewTransition)
    requires doc.Valid()
    modifies doc`queue, doc`renderingSuppression, doc`capturedFlags, doc`showTree, doc`attachedRoots, doc`active
    modifies if doc.active == null then {} else doc.active.Footprint()
    ensures doc.Valid()
    ensures fresh(t) && fresh(t.ready) && fresh(t.updateCallbackDone) && fresh(t.finished) && t.Valid()
    ensures t.updateCallback == callback && t.namedElements == NoNamedElements && t.groups == []
    ensures hidden ==>
              && t.phase == Done && !doc.renderingSuppression
              && doc.active == old(doc.active)
              && doc.queue == old(doc.queue) + [GlobalObject]
              && doc.capturedFlags == old(doc.capturedFlags) && doc.showTree == old(doc.showTree)
              && doc.attachedRoots == old(doc.attachedRoots)
              && t.ready.status == Rejected && t.updateCallbackDone.status == Fulfilled && t.finished.status == Fulfilled
              && t.ready.settled && t.updateCallbackDone.settled && t.finished.settled
    ensures !hidden ==>
              && doc.active == t && t.phase == PendingCapture
              && t.ready.status == Pending && t.updateCallbackDone.status == Pending && t.finished.status == Pending
              && (old(doc.active) == null ==>
                    && doc.queue == old(doc.queue) && doc.renderingSuppression == old(doc.renderingSuppression)
                    && doc.capturedFlags == old(doc.capturedFlags) && doc.showTree == old(doc.showTree)
                    && doc.attachedRoots == old(doc.attachedRoots))
              && (old(doc.active) != null ==>
                    && old(doc.active).phase == Done
                    && !doc.renderingSuppression
                    && old(doc.active).ready.status == Rejected && old(doc.active).ready.settled
                    && old(doc.active).updateCallbackDone.status == Fulfilled && old(doc.active).updateCallbackDone.settled
                    && old(doc.active).finished.status == Fulfilled && old(doc.active).finished.settled
                    && doc.queue == old(doc.queue) + (if old(doc.active.phase) == PendingCapture then [GlobalObject] else [])
                    && doc.capturedFlags == old(doc.capturedFlags) - old(doc.active).namedElements.NewElements()
                    && !doc.showTree
                    && old(doc.active) !in doc.attachedRoots
                    && doc.attachedRoots - {old(doc.active)} == old(doc.attachedRoots) - {old(doc.active)})
  {
    t := new ViewTransition();
    if callback.Some? {
      t.updateCallback := callback;
    }
    if hidden {
      SkipTransition(doc, t);
      return;
    }
    if doc.active != null {
      SkipTransition(doc, doc.active);
    }
    doc.active := t;
  }

  // ---------------------------------------------------------------------------
  // The update callback
  // ---------------------------------------------------------------------------

  /** The phase calling the update callback leaves behind: "pending-capture"
      moves to "update-callback-called", any other phase stays. */
  function CalledPhase(p: Phase): (q: Phase)
    ensures Advances(p, q)
    ensures q != PendingCapture
  {
    if p == PendingCapture then UpdateCallbackCalled else p
  }

  /** Why a call of the update callback that found the transition in phase
      `p` throws `e`: the phase assertion fails, or the callback itself
      throws. */
  predicate CallFails(p: Phase, callback: Option<UpdateCallback>, e: Error)
    ensures CallFails(p, callback, e) ==> e == CallbackThrew || e == CallAssertion
  {
    if p == Done || p == PendingCapture then callback == Some(Throws) && e == CallbackThrew
    else e == CallAssertion
  }

  /** Calling the update callback. It asserts the transition is done or
      before "update-callback-called", moves a transition that is not done to
      "update-callback-called", and invokes the callback; a callback that
      throws makes the whole call throw. The promise built around the
      callback's result is always fulfilled, so the update callback done
      promise is fulfilled and activation (the separate activation step)
      follows; the rejection steps never run. */
  method CallTheUpdateCallback(t: ViewTransition) returns (outcome: Outcome)
    modifies t`phase, t.updateCallbackDone
    ensures t.phase == CalledPhase(old(t.phase))
    ensures outcome.Thrown? <==> !(old(t.phase) == Done || old(t.phase) == PendingCapture) || t.updateCallback == Some(Throws)
    ensures outcome.Thrown? ==> CallFails(old(t.phase), t.updateCallback, outcome.error) && unchanged(t.updateCallbackDone)
    ensures outcome == Normal ==> t.updateCallbackDone.status == Fulfilled && t.updateCallbackDone.settled
  {
    BeforeUpdateCallbackCalled(t.phase);
    if !(t.phase == Done || Before(t.phase, UpdateCallbackCalled)) {
      return Thrown(CallAssertion);
    }
    if t.phase != Done {
      t.phase := UpdateCallbackCalled;
    }
    var callbackPromise := new WatchablePromise();
    if t.updateCallback == Some(Throws) {
      return Thrown(CallbackThrew);
    }
    callbackPromise.Resolve();
    if callbackPromise.status == Fulfilled {
      t.updateCallbackDone.Resolve();
    } else {
      // The rejection steps: unreachable, the promise was just fulfilled.
      assert false;
    }
    outcome := Normal;
  }

  /** The transitions held by the entries of a queue, in queue order. */
  function TransitionsOf(q: seq<QueueEntry>): seq<ViewTransition>
  {
    if |q| == 0 then []
    else TransitionsOf(q[..|q| - 1]) + (if q[|q| - 1].Queued? then [q[|q| - 1].t] else [])
  }

  /** Each transition `TransitionsOf` lists is held by an entry of the queue. */
  lemma {:induction false} TransitionsOfQueued(q: seq<QueueEntry>)
    ensures forall u :: u in TransitionsOf(q) ==> u in QueuedTransitions(q)
  {
    if |q| > 0 {
      TransitionsOfQueued(q[..|q| - 1]);
      forall u | u in TransitionsOf(q)
        ensures u in QueuedTransitions(q)
      {
        if u in TransitionsOf(q[..|q| - 1]) {
          var e :| e in q[..|q| - 1] && e.Queued? && e.t == u;
          assert e in q;
        } else {
          assert q[|q| - 1] in q;
        }
      }
    }
  }

  /** One more entry of a queue: the transitions it lists grow by the entry's
      transition, if it holds one. */
  lemma TransitionsOfNext(q: seq<QueueEntry>, i: nat)
    requires i < |q|
    ensures TransitionsOf(q[..i + 1]) == TransitionsOf(q[..i]) + (if q[i].Queued? then [q[i].t] else [])
    ensures GlobalObject !in q[..i] && q[i] != GlobalObject ==> GlobalObject !in q[..i + 1]
    ensures q[i] in q
  {
    assert q[..i + 1] == q[..i] + [q[i]];
    assert q[..i + 1][..i] == q[..i];
  }

  /** The update callback done promises of a list of transitions. */
  function DonePromisesOf(ts: seq<ViewTransition>): set<WatchablePromise>
  {
    set u | u in ts :: u.updateCallbackDone
  }

  /** Calling the update callbacks of a queue's entries in queue order, up to
      the first call that throws; the global object, which has no update
      callback, always throws. `stop` is the index of the entry that threw
      (the queue's length when none did); `due` lists the transitions whose
      calls completed, in order. */
  method CallQueuedCallbacks(queue: seq<QueueEntry>) returns (outcome: Outcome, due: seq<ViewTransition>, ghost stop: nat)
    modifies QueuedTransitions(queue)`phase, QueuedDonePromises(queue)
    ensures stop <= |queue|
    ensures due == TransitionsOf(queue[..stop]) && GlobalObject !in queue[..stop]
    ensures outcome == Normal <==> stop == |queue|
    ensures outcome.Thrown? ==>
              var e := queue[stop];
              && (e.GlobalObject? <==> outcome == Thrown(GlobalObjectQueued))
              && (e.Queued? ==>
                    CallFails(if e.t in due then CalledPhase(old(e.t.phase)) else old(e.t.phase),
                              e.t.updateCallback, outcome.error))
    ensures forall u :: u in QueuedTransitions(queue) ==>
              u.phase == (if u in due || (stop < |queue| && queue[stop] == Queued(u))
                          then CalledPhase(old(u.phase)) else old(u.phase))
    ensures forall u :: u in due ==>
              && u in QueuedTransitions(queue)
              && (old(u.phase) == Done || old(u.phase) == PendingCapture)
              && u.updateCallback != Some(Throws)
              && u.updateCallbackDone.status == Fulfilled
    ensures forall p :: p in QueuedDonePromises(queue) && p !in DonePromisesOf(due) ==> unchanged(p)
  {
    due := [];
    var i := 0;
    while i < |queue|
      invariant i <= |queue|
      invariant due == TransitionsOf(queue[..i])
      invariant GlobalObject !in queue[..i]
      invariant forall u :: u in QueuedTransitions(queue) ==>
                  u.phase == (if u in due then CalledPhase(old(u.phase)) else old(u.phase))
      invariant forall u :: u in due ==>
                  && u in QueuedTransitions(queue)
                  && (old(u.phase) == Done || old(u.phase) == PendingCapture)
                  && u.updateCallback != Some(Throws)
                  && u.updateCallbackDone.status == Fulfilled
      invariant forall p :: p in QueuedDonePromises(queue) && p !in DonePromisesOf(due) ==> unchanged(p)
    {
      TransitionsOfNext(queue, i);
      if queue[i].GlobalObject? {
        return Thrown(GlobalObjectQueued), due, i;
      }
      var t := queue[i].t;
      var o := CallTheUpdateCallback(t);
      if o.Thrown? {
        return o, due, i;
      }
      due := due + [t];
      i := i + 1;
    }
    assert queue[..i] == queue;
    outcome, stop := Normal, i;
  }

  /** Flushing the update callback queue: calls the queued update callbacks
      in queue order, then empties the queue. The first call that throws ends
      the flush with the queue left as it was. `due` lists the transitions
      whose calls completed, in order: each is activated next. */
  method FlushTheUpdateCallbackQueue(doc: Document) returns (outcome: Outcome, due: seq<ViewTransition>, ghost stop: nat)
    modifies doc`queue, QueuedTransitions(doc.queue)`phase, QueuedDonePromises(doc.queue)
    ensures stop <= |old(doc.queue)|
    ensures due == TransitionsOf(old(doc.queue)[..stop]) && GlobalObject !in old(doc.queue)[..stop]
    ensures outcome == Normal <==> stop == |old(doc.queue)|
    ensures outcome == Normal ==> doc.queue == []
    ensures outcome.Thrown? ==>
              && doc.queue == old(doc.queue)
              && var e := old(doc.queue)[stop];
                 && (e.GlobalObject? <==> outcome == Thrown(GlobalObjectQueued))
                 && (e.Queued? ==>
                       CallFails(if e.t in due then CalledPhase(old(e.t.phase)) else old(e.t.phase),
                                 e.t.updateCallback, outcome.error))
    ensures GlobalObject in old(doc.queue) ==> outcome.Thrown?
    ensures forall u :: u in QueuedTransitions(old(doc.queue)) ==>
              u.phase == (if u in TransitionsOf(old(doc.queue)[..if stop < |old(doc.queue)| then stop + 1 else stop])
                          then CalledPhase(old(u.phase)) else old(u.phase))
    ensures forall u :: u in due ==>
              && u in QueuedTransitions(old(doc.queue))
              && (old(u.phase) == Done || old(u.phase) == PendingCapture)
              && u.updateCallback != Some(Throws)
              && u.updateCallbackDone.status == Fulfilled
    ensures forall p :: p in QueuedDonePromises(old(doc.queue)) && p !in DonePromisesOf(due) ==> unchanged(p)
  {
    outcome, due, stop := CallQueuedCallbacks(doc.queue);
    if stop < |doc.queue| {
      TransitionsOfNext(doc.queue, stop);
    }
    if outcome == Normal {
      assert doc.queue[..stop] == doc.queue;
      doc.queue := [];
    }
  }

  // ---------------------------------------------------------------------------
  // Setting up a transition
  // ---------------------------------------------------------------------------

  /** Every entry of `q` was already in `q0`, holds `t`, or is the global
      object. */
  predicate QueueFrom(q: seq<QueueEntry>, q0: seq<QueueEntry>, t: ViewTransition)
  {
    forall e :: e in q ==> e in q0 || e == Queued(t) || e == GlobalObject
  }

  /** The global task that step 5 of setting up queues: unless the transition is done by
      then, it schedules the update callback for the transition and flushes
      the queue. A throw there ends that global task and reaches nobody. */
  method ContinueSetup(doc: Document, t: ViewTransition) returns (due: seq<ViewTransition>)
    modifies doc`queue, t`phase, t.updateCallbackDone
    modifies QueuedTransitions(doc.queue)`phase, QueuedDonePromises(doc.queue)
    ensures old(t.phase) == Done ==> doc.queue == old(doc.queue) && due == [] && t.phase == Done
    ensures old(t.phase) != Done ==> t.phase != Done
    ensures QueueFrom(doc.queue, old(doc.queue), t)
    ensures old(t.phase) != Done && old(doc.queue) == [] ==>
              if old(t.phase) != PendingCapture then
                && doc.queue == [Queued(t)] && due == [] && t.phase == old(t.phase)
              else
                && t.phase == UpdateCallbackCalled
                && (t.updateCallback == Some(Throws) ==> doc.queue == [Queued(t)] && due == [])
                && (t.updateCallback != Some(Throws) ==>
                      doc.queue == [] && due == [t] && t.updateCallbackDone.status == Fulfilled)
  {
    if t.phase == Done {
      return [];
    }
    ScheduleTheUpdateCallback(doc, Queued(t));
    assert Queued(t) in doc.queue;
    assert [Queued(t)][..0] == [] && [Queued(t)][..1] == [Queued(t)];
    var _, flushed, _ := FlushTheUpdateCallbackQueue(doc);
    due := flushed;
  }

  /** Steps 4 and 5 of setting up, once the old state is captured: a failed
      capture skips the transition; otherwise rendering is suppressed and the
      task of `ContinueSetup` runs. */
  method FinishSetup(doc: Document, t: ViewTransition, captured: bool) returns (due: seq<ViewTransition>)
    requires t.Valid()
    modifies doc`queue, doc`renderingSuppression, doc`capturedFlags, doc`showTree, doc`attachedRoots, doc`active
    modifies t`phase, t.ready, t.updateCallbackDone, t.finished
    modifies QueuedTransitions(doc.queue)`phase, QueuedDonePromises(doc.queue)
    ensures doc.active == old(doc.active) || doc.active == null
    ensures old(t.phase) != Done && doc.active == t ==> t.phase != Done
    ensures QueueFrom(doc.queue, old(doc.queue), t)
    ensures captured ==>
              && doc.renderingSuppression && doc.active == old(doc.active)
              && doc.capturedFlags == old(doc.capturedFlags)
    ensures captured && old(doc.queue) == [] && old(t.phase) == PendingCapture ==>
              && t.phase == UpdateCallbackCalled
              && (t.updateCallback == Some(Throws) ==> doc.queue == [Queued(t)] && due == [])
              && (t.updateCallback != Some(Throws) ==>
                    doc.queue == [] && due == [t] && t.updateCallbackDone.status == Fulfilled)
    ensures !captured && old(doc.queue) == [] && old(t.phase) == PendingCapture ==>
              && t.phase == Done && !doc.renderingSuppression
              && doc.queue == [GlobalObject]
              && t.ready.status == Rejected && t.finished.status == Fulfilled
              && (old(doc.active) == t ==> doc.active == null)
              && due == []
  {
    if !captured {
      SkipTransition(doc, t);
      return [];
    }
    doc.renderingSuppression := true;
    due := ContinueSetup(doc, t);
  }

  /** Steps 3 to 5 of setting up: captures the old state, then
      `FinishSetup`. */
  method SetupAfterFlush(doc: Document, t: ViewTransition, scene: Scene) returns (due: seq<ViewTransition>)
    requires t.Valid()
    modifies doc`queue, doc`renderingSuppression, doc`capturedFlags, doc`showTree, doc`attachedRoots, doc`active
    modifies t`phase, t`initialSnapshotContainingBlockSize, t`namedElements, t.ready, t.updateCallbackDone, t.finished
    modifies QueuedTransitions(doc.queue)`phase, QueuedDonePromises(doc.queue)
    ensures t.initialSnapshotContainingBlockSize == Some(doc.snapshotContainingBlockSize)
    ensures doc.active == old(doc.active) || doc.active == null
    ensures old(t.phase) != Done && doc.active == t ==> t.phase != Done
    ensures QueueFrom(doc.queue, old(doc.queue), t)
    ensures old(doc.queue) == [] && old(t.phase) == PendingCapture ==>
              var kept := Kept(scene.elements, scene.info);
              if Distinct(NamesOf(kept, scene.info)) then
                && t.namedElements == StoreOld(old(t.namedElements), kept, scene.info, doc.snapshotContainingBlockSize)
                && doc.capturedFlags == old(doc.capturedFlags) - SetOf(Scanned(scene))
                && doc.renderingSuppression && doc.active == old(doc.active)
                && t.phase == UpdateCallbackCalled
                && (t.updateCallback == Some(Throws) ==> doc.queue == [Queued(t)] && due == [])
                && (t.updateCallback != Some(Throws) ==>
                      doc.queue == [] && due == [t] && t.updateCallbackDone.status == Fulfilled)
              else
                && t.namedElements == old(t.namedElements)
                && t.phase == Done && !doc.renderingSuppression
                && doc.queue == [GlobalObject]
                && t.ready.status == Rejected && t.finished.status == Fulfilled
                && (old(doc.active) == t ==> doc.active == null)
                && due == []
  {
    var ok := CaptureTheOldState(doc, t, scene);
    due := FinishSetup(doc, t, ok);
  }

  /** Setting up a view transition: flushes the update callback queue, then
      runs `SetupAfterFlush`. `due` lists the transitions whose update
      callbacks completed, in order: each is activated next. */
  method SetupViewTransition(doc: Document, t: ViewTransition, scene: Scene) returns (outcome: Outcome, due: seq<ViewTransition>)
    requires t.Valid()
    modifies doc`queue, doc`renderingSuppression, doc`capturedFlags, doc`showTree, doc`attachedRoots, doc`active
    modifies t`phase, t`initialSnapshotContainingBlockSize, t`namedElements, t.ready, t.updateCallbackDone, t.finished
    modifies QueuedTransitions(doc.queue)`phase, QueuedDonePromises(doc.queue)
    ensures doc.active == old(doc.active) || doc.active == null
    ensures old(t.phase) != Done && doc.active == t ==> t.phase != Done
    ensures QueueFrom(doc.queue, old(doc.queue), t)
    ensures GlobalObject in old(doc.queue) ==> outcome.Thrown?
    ensures old(doc.queue) == [] ==> outcome == Normal
    ensures outcome.Thrown? ==>
              && outcome.error in {GlobalObjectQueued, CallAssertion, CallbackThrew}
              && doc.active == old(doc.active)
              && (t !in QueuedTransitions(old(doc.queue)) ==> t.phase == old(t.phase))
              && doc.queue == old(doc.queue)
              && t.namedElements == old(t.namedElements)
              && t.initialSnapshotContainingBlockSize == old(t.initialSnapshotContainingBlockSize)
              && doc.capturedFlags == old(doc.capturedFlags)
              && doc.renderingSuppression == old(doc.renderingSuppression)
    ensures outcome == Normal ==>
              && t.initialSnapshotContainingBlockSize == Some(doc.snapshotContainingBlockSize)
              && TransitionsOf(old(doc.queue)) <= due
    ensures outcome == Normal && old(t.phase) == PendingCapture && t !in QueuedTransitions(old(doc.queue)) ==>
              var kept := Kept(scene.elements, scene.info);
              if Distinct(NamesOf(kept, scene.info)) then
                && t.namedElements == StoreOld(old(t.namedElements), kept, scene.info, doc.snapshotContainingBlockSize)
                && doc.capturedFlags == old(doc.capturedFlags) - SetOf(Scanned(scene))
                && doc.renderingSuppression && doc.active == old(doc.active)
                && t.phase == UpdateCallbackCalled
                && (t.updateCallback == Some(Throws) ==>
                      doc.queue == [Queued(t)] && due == TransitionsOf(old(doc.queue)))
                && (t.updateCallback != Some(Throws) ==>
                      && doc.queue == [] && due == TransitionsOf(old(doc.queue)) + [t]
                      && t.updateCallbackDone.status == Fulfilled)
              else
                && t.namedElements == old(t.namedElements)
                && t.phase == Done && !doc.renderingSuppression
                && doc.queue == [GlobalObject]
                && t.ready.status == Rejected && t.finished.status == Fulfilled
                && (old(doc.active) == t ==> doc.active == null)
                && due == TransitionsOf(old(doc.queue))
  {
    var flushed;
    ghost var stop;
    outcome, flushed, stop := FlushTheUpdateCallbackQueue(doc);
    due := flushed;
    if outcome.Thrown? {
      return;
    }
    assert old(doc.queue)[..|old(doc.queue)|] == old(doc.queue);
    var more := SetupAfterFlush(doc, t, scene);
    due := due + more;
  }

  // ---------------------------------------------------------------------------
  // Activating a transition
  // ---------------------------------------------------------------------------

  /** Step 5 of activating: sets the captured flag on each record's new
      element. */
  method FlagNewElements(doc: Document, t: ViewTransition)
    modifies doc`capturedFlags
    ensures doc.capturedFlags == old(doc.capturedFlags) + t.namedElements.NewElements()
  {
    var names := t.namedElements.names;
    var i := 0;
    while i < |names|
      invariant i <= |names|
      invariant doc.capturedFlags == old(doc.capturedFlags) + NewElementsAmong(t.namedElements, names[..i])
    {
      var c := t.namedElements.Get(names[i]);
      assert names[..i + 1] == names[..i] + [names[i]];
      if c.newElement.Some? {
        doc.capturedFlags := doc.capturedFlags + {c.newElement.value};
      }
      i := i + 1;
    }
    assert names[..i] == names;
    NewElementsAmongAll(t.namedElements);
  }

  /** What activation leaves in the record `d` that was `c` before it set up
      the pseudo-elements and updated their styles: the captured data is
      untouched and the group styles rule describes the group's size,
      position and style. */
  ghost predicate Presented(c: CapturedElement, d: CapturedElement, n: string, info: ElementId -> ElementInfo, scb: Size)
  {
    && d.styleDefinitions.groupStylesRule != null
    && d.(styleDefinitions := NoStyleDefinitions) == c.(styleDefinitions := NoStyleDefinitions)
    && d.styleDefinitions.groupStylesRule.text == GroupStyles(n, GroupBlock(c, info, scb))
  }

  /** A record restyled after the set-up kept its captured data is
      presented. */
  lemma PresentedAfterRestyle(c: CapturedElement, mid: CapturedElement, d: CapturedElement, n: string,
                              info: ElementId -> ElementInfo, scb: Size)
    requires SameCapture(mid, c) && Restyled(mid, d, n, info, scb)
    ensures Presented(c, d, n, info, scb)
  {
    assert mid.(styleDefinitions := NoStyleDefinitions) == c.(styleDefinitions := NoStyleDefinitions);
    assert GroupBlock(mid, info, scb) == GroupBlock(c, info, scb);
  }

  /** Every record of `ne` is presented in `cur`, in the same order, and its
      group styles rule is in the sheet `rules` exactly once. */
  ghost predicate AllPresented(ne: NamedMap, cur: NamedMap, rules: seq<Rule>, info: ElementId -> ElementInfo, scb: Size)
  {
    && cur.names == ne.names
    && forall j :: 0 <= j < |ne.names| ==>
         var n := ne.names[j];
         && Presented(ne.Get(n), cur.Get(n), n, info, scb)
         && multiset(rules)[cur.Get(n).styleDefinitions.groupStylesRule] == 1
  }

  /** What the style update leaves, in terms of the records before the
      set-up. */
  lemma PresentedAfterUpdate(ne: NamedMap, mid: NamedMap, cur: NamedMap, rules: seq<Rule>,
                             info: ElementId -> ElementInfo, scb: Size)
    requires mid.names == ne.names && cur.names == mid.names
    requires forall n :: ne.Has(n) ==> mid.Has(n) && SameCapture(mid.Get(n), ne.Get(n))
    requires DefinedUpTo(ne, |ne.names|, mid)
    requires forall j :: 0 <= j < |cur.names| ==>
               var n := cur.names[j];
               && Restyled(mid.Get(n), cur.Get(n), n, info, scb)
               && multiset(rules)[cur.Get(n).styleDefinitions.groupStylesRule] == 1
    ensures AllPresented(ne, cur, rules, info, scb)
    ensures DefinedUpTo(ne, |ne.names|, cur)
    ensures GroupRulesOf(mid, ne.names) == GroupRulesOf(ne, ne.names)
  {
    assert DefinedUpTo(ne, |ne.names|, cur) by {
      DefinedAfterRestyle(ne, mid, cur, info, scb);
    }
    assert AllPresented(ne, cur, rules, info, scb) by {
      AllPresentedAfterRestyle(ne, mid, cur, rules, info, scb);
    }
    GroupRulesAgree(mid, ne, ne.names);
  }

  /** The `AllPresented` half of `PresentedAfterUpdate`. */
  lemma AllPresentedAfterRestyle(ne: NamedMap, mid: NamedMap, cur: NamedMap, rules: seq<Rule>,
                                 info: ElementId -> ElementInfo, scb: Size)
    requires mid.names == ne.names && cur.names == mid.names
    requires forall n :: ne.Has(n) ==> mid.Has(n) && SameCapture(mid.Get(n), ne.Get(n))
    requires forall j :: 0 <= j < |cur.names| ==>
               var n := cur.names[j];
               && Restyled(mid.Get(n), cur.Get(n), n, info, scb)
               && multiset(rules)[cur.Get(n).styleDefinitions.groupStylesRule] == 1
    ensures AllPresented(ne, cur, rules, info, scb)
  {
    forall j | 0 <= j < |ne.names|
      ensures var n := ne.names[j];
              Presented(ne.Get(n), cur.Get(n), n, info, scb)
    {
      var n := ne.names[j];
      PresentedAfterRestyle(ne.Get(n), mid.Get(n), cur.Get(n), n, info, scb);
    }
  }

  /** Step 7 of activating: updates the pseudo-element styles (which never
      fails) of records that are those of `ne` with the set-up's style
      definitions. */
  method RestyleRecords(doc: Document, t: ViewTransition, info: ElementId -> ElementInfo, ghost ne: NamedMap)
    requires doc.sheet.Valid() && t.namedElements.names == ne.names
    requires forall n :: ne.Has(n) ==> t.namedElements.Has(n) && SameCapture(t.namedElements.Get(n), ne.Get(n))
    requires DefinedUpTo(ne, |ne.names|, t.namedElements)
    modifies doc.sheet, t`namedElements
    ensures doc.sheet.Valid()
    ensures AllPresented(ne, t.namedElements, doc.sheet.rules, info, doc.snapshotContainingBlockSize)
    ensures DefinedUpTo(ne, |ne.names|, t.namedElements)
    ensures multiset(doc.sheet.rules) == old(multiset(doc.sheet.rules)) - multiset(GroupRulesOf(ne, ne.names))
                                                                        + multiset(GroupRulesOf(t.namedElements, ne.names))
  {
    ghost var mid := t.namedElements;
    UpdatePseudoElementStyles(doc, t, info);
    PresentedAfterUpdate(ne, mid, t.namedElements, doc.sheet.rules, info, doc.snapshotContainingBlockSize);
  }

  /** Steps 7 to 9 of activating: `RestyleRecords`, then moves to
      "animating" and fulfils the ready promise. */
  method AnimateTransition(doc: Document, t: ViewTransition, info: ElementId -> ElementInfo, ghost ne: NamedMap)
    requires doc.sheet.Valid() && t.namedElements.names == ne.names
    requires forall n :: ne.Has(n) ==> t.namedElements.Has(n) && SameCapture(t.namedElements.Get(n), ne.Get(n))
    requires DefinedUpTo(ne, |ne.names|, t.namedElements)
    modifies doc.sheet, t`namedElements, t`phase, t.ready
    ensures doc.sheet.Valid()
    ensures t.phase == Animating && t.ready.status == Fulfilled && t.ready.settled
    ensures AllPresented(ne, t.namedElements, doc.sheet.rules, info, doc.snapshotContainingBlockSize)
    ensures DefinedUpTo(ne, |ne.names|, t.namedElements)
    ensures multiset(doc.sheet.rules) == old(multiset(doc.sheet.rules)) - multiset(GroupRulesOf(ne, ne.names))
                                                                        + multiset(GroupRulesOf(t.namedElements, ne.names))
  {
    RestyleRecords(doc, t, info, ne);
    t.phase := Animating;
    t.ready.Resolve();
  }

  /** Steps 6 to 9 of activating: sets up the pseudo-elements (which throws
      with no active transition or a record without images), then
      `AnimateTransition`. */
  method ShowTransition(doc: Document, t: ViewTransition, info: ElementId -> ElementInfo)
    returns (outcome: Outcome, ghost setup: seq<Rule>)
    requires doc.sheet.Valid()
    modifies doc`showTree, doc`attachedRoots, doc.sheet
    modifies t`groups, t`namedElements, t`phase, t.ready
    ensures doc.sheet.Valid() && doc.showTree
    ensures RootShown(doc.attachedRoots, old(doc.attachedRoots), doc.active)
    ensures var ne := old(t.namedElements);
            outcome == Normal <==> old(doc.active) != null && SetupStop(ne) == |ne.names|
    ensures outcome.Thrown? ==>
              && t.phase == old(t.phase) && unchanged(t.ready)
              && outcome.error == (if old(doc.active) == null then NullActive else MissingImages)
    ensures outcome == Normal ==>
              && t.phase == Animating && t.ready.status == Fulfilled && t.ready.settled
              && var ne := old(t.namedElements);
                 && t.groups == old(t.groups) + GroupsOf(ne, ne.names)
                 && AllPresented(ne, t.namedElements, doc.sheet.rules, info, doc.snapshotContainingBlockSize)
                 && DefinedUpTo(ne, |ne.names|, t.namedElements)
                 && Texts(setup) == AllSetupTexts(ne, ne.names)
                 && multiset(doc.sheet.rules) == old(multiset(doc.sheet.rules)) + multiset(setup)
                                                 - multiset(GroupRulesOf(ne, ne.names))
                                                 + multiset(GroupRulesOf(t.namedElements, ne.names))
    ensures outcome == Normal ==> forall r :: r in setup ==> fresh(r)
  {
    ghost var ne := t.namedElements;
    ghost var before := doc.sheet.rules;
    setup := [];
    outcome := SetupTransitionPseudoElements(doc, t);
    if outcome.Thrown? {
      return;
    }
    assert ne.names[..|ne.names|] == ne.names;
    setup := doc.sheet.rules[|before|..];
    TextsSuffix(before, doc.sheet.rules, AllSetupTexts(ne, ne.names));
    AnimateTransition(doc, t, info, ne);
  }

  /** Steps 5 to 9 of activating: flags the new elements, then
      `ShowTransition`. */
  method PresentTransition(doc: Document, t: ViewTransition, info: ElementId -> ElementInfo)
    returns (outcome: Outcome, ghost setup: seq<Rule>)
    requires doc.sheet.Valid()
    modifies doc`capturedFlags, doc`showTree, doc`attachedRoots, doc.sheet
    modifies t`groups, t`namedElements, t`phase, t.ready
    ensures doc.sheet.Valid() && doc.showTree
    ensures RootShown(doc.attachedRoots, old(doc.attachedRoots), doc.active)
    ensures doc.capturedFlags == old(doc.capturedFlags) + old(t.namedElements).NewElements()
    ensures var ne := old(t.namedElements);
            outcome == Normal <==> old(doc.active) != null && SetupStop(ne) == |ne.names|
    ensures outcome.Thrown? ==>
              && t.phase == old(t.phase) && unchanged(t.ready)
              && outcome.error == (if old(doc.active) == null then NullActive else MissingImages)
    ensures outcome == Normal ==>
              && t.phase == Animating && t.ready.status == Fulfilled && t.ready.settled
              && var ne := old(t.namedElements);
                 && t.groups == old(t.groups) + GroupsOf(ne, ne.names)
                 && AllPresented(ne, t.namedElements, doc.sheet.rules, info, doc.snapshotContainingBlockSize)
                 && DefinedUpTo(ne, |ne.names|, t.namedElements)
                 && Texts(setup) == AllSetupTexts(ne, ne.names)
                 && multiset(doc.sheet.rules) == old(multiset(doc.sheet.rules)) + multiset(setup)
                                                 - multiset(GroupRulesOf(ne, ne.names))
                                                 + multiset(GroupRulesOf(t.namedElements, ne.names))
    ensures outcome == Normal ==> forall r :: r in setup ==> fresh(r)
  {
    FlagNewElements(doc, t);
    outcome, setup := ShowTransition(doc, t, info);
  }

  /** Activating a view transition: a done transition is left alone;
      otherwise rendering is no longer suppressed, a changed snapshot
      containing block size or a failed capture of the new state skips the
      transition, and `PresentTransition` does the rest. */
  method ActivateViewTransition(doc: Document, t: ViewTransition, scene: Scene)
    returns (outcome: Outcome, ghost setup: seq<Rule>)
    requires t.Valid() && doc.sheet.Valid()
    modifies doc`queue, doc`renderingSuppression, doc`capturedFlags, doc`showTree, doc`attachedRoots, doc`active
    modifies doc.sheet, t`phase, t`namedElements, t`groups, t.ready, t.updateCallbackDone, t.finished
    ensures doc.sheet.Valid()
    ensures old(t.phase) == Done ==>
              outcome == Normal && unchanged(doc, doc.sheet, t, t.ready, t.updateCallbackDone, t.finished)
    ensures old(t.phase) != Done ==> !doc.renderingSuppression
    ensures old(t.phase) != Done && !(t.initialSnapshotContainingBlockSize == Some(doc.snapshotContainingBlockSize)
                                      && Distinct(NamesOf(Kept(scene.elements, scene.info), scene.info))) ==>
              && outcome == Normal && t.phase == Done && doc.active != t
              && t.ready.status == Rejected && t.finished.status == Fulfilled
              && Skipped(doc, t)
              && doc.sheet.rules == old(doc.sheet.rules) && t.groups == old(t.groups)
              && t.namedElements == (if t.initialSnapshotContainingBlockSize != Some(doc.snapshotContainingBlockSize)
                                     then old(t.namedElements)
                                     else StoreNew(old(t.namedElements), Scanned(scene), scene.info))
    ensures old(t.phase) != Done && t.initialSnapshotContainingBlockSize == Some(doc.snapshotContainingBlockSize)
            && Distinct(NamesOf(Kept(scene.elements, scene.info), scene.info)) ==>
              && doc.queue == old(doc.queue) && doc.active == old(doc.active) && doc.showTree
              && unchanged(t.updateCallbackDone, t.finished)
              && RootShown(doc.attachedRoots, old(doc.attachedRoots), doc.active)
    ensures old(t.phase) != Done && t.initialSnapshotContainingBlockSize == Some(doc.snapshotContainingBlockSize)
            && Distinct(NamesOf(Kept(scene.elements, scene.info), scene.info)) ==>
              var ne := StoreNew(old(t.namedElements), Scanned(scene), scene.info);
              && doc.capturedFlags == old(doc.capturedFlags) + ne.NewElements()
              && (outcome == Normal <==> old(doc.active) != null && SetupStop(ne) == |ne.names|)
              && (outcome.Thrown? ==> t.phase == old(t.phase) && unchanged(t.ready))
              && (outcome == Normal ==>
                    && t.phase == Animating && t.ready.status == Fulfilled
                    && t.groups == old(t.groups) + GroupsOf(ne, ne.names)
                    && AllPresented(ne, t.namedElements, doc.sheet.rules, scene.info, doc.snapshotContainingBlockSize)
                    && DefinedUpTo(ne, |ne.names|, t.namedElements)
                    && Texts(setup) == AllSetupTexts(ne, ne.names)
                    && multiset(doc.sheet.rules) == old(multiset(doc.sheet.rules)) + multiset(setup)
                                                    - multiset(GroupRulesOf(ne, ne.names))
                                                    + multiset(GroupRulesOf(t.namedElements, ne.names)))
    ensures outcome == Normal ==> forall r :: r in setup ==> fresh(r)
  {
    setup := [];
    if t.phase == Done {
      return Normal, setup;
    }
    doc.renderingSuppression := false;
    if t.initialSnapshotContainingBlockSize != Some(doc.snapshotContainingBlockSize) {
      outcome := SkipTheViewTransition(doc, t);
      return;
    }
    var ok := CaptureTheNewState(t, scene);
    if !ok {
      outcome := SkipTheViewTransition(doc, t);
      return;
    }
    outcome, setup := PresentTransition(doc, t, scene.info);
  }

  // ---------------------------------------------------------------------------
  // Frames
  // ---------------------------------------------------------------------------

  /** The play state of a Web Animation. */
  datatype PlayState = Idle | Running | Paused | Finished

  /** The string the `playState` attribute reports. */
  function PlayStateName(s: PlayState): string
  {
    match s
    case Idle => "idle"
    case Running => "running"
    case Paused => "paused"
    case Finished => "finished"
  }

  /** The frame step's test of an animation: its play state is "pause" or
      "running". */
  predicate CountsAsActive(s: PlayState)
  {
    PlayStateName(s) == "pause" || PlayStateName(s) == "running"
  }

  /** No play state is named "pause", so a paused animation does not keep the
      transition alive: only a running one does. */
  lemma OnlyRunningCounts(s: PlayState)
    ensures CountsAsActive(s) <==> s == Running
    ensures !CountsAsActive(Paused)
  {
    assert PlayStateName(Paused) != "pause" by {
      assert PlayStateName(Paused)[5] == 'd';
    }
  }

  /** Some animation of some node counts as active. */
  predicate AnyActive(nodes: seq<PseudoNode>, animations: PseudoNode -> seq<PlayState>)
  {
    exists i, j :: 0 <= i < |nodes| && 0 <= j < |animations(nodes[i])| && CountsAsActive(animations(nodes[i])[j])
  }

  /** Steps 2 and 3 of handling a frame: walks the nodes and their animations
      and stops at the first that counts as active. `animations` gives each
      pseudo-element's animations in the order `getAnimations` lists them. */
  method HasActiveAnimations(nodes: seq<PseudoNode>, animations: PseudoNode -> seq<PlayState>) returns (has: bool)
    ensures has <==> AnyActive(nodes, animations)
  {
    has := false;
    var i := 0;
    label scan:
    while i < |nodes|
      invariant i <= |nodes| && !has
      invariant forall k, j :: 0 <= k < i && 0 <= j < |animations(nodes[k])| ==> !CountsAsActive(animations(nodes[k])[j])
    {
      var list := animations(nodes[i]);
      var j := 0;
      while j < |list|
        invariant j <= |list| && !has
        invariant forall m :: 0 <= m < j ==> !CountsAsActive(list[m])
      {
        if PlayStateName(list[j]) == "pause" || PlayStateName(list[j]) == "running" {
          has := true;
          break scan;
        }
        j := j + 1;
      }
      i := i + 1;
    }
  }

  /** Handling a transition frame. With no active animation on the
      pseudo-elements below the transition root, the transition is done: it is
      cleared (which throws unless it is the active one) and its finished
      promise fulfilled. Otherwise a changed snapshot containing block size
      skips it (which throws if it is already done). Step 6, updating the
      pseudo-element styles, is disabled. */
  method HandleTransitionFrame(doc: Document, t: ViewTransition, animations: PseudoNode -> seq<PlayState>) returns (outcome: Outcome)
    requires t.Valid()
    modifies doc`queue, doc`renderingSuppression, doc`capturedFlags, doc`showTree, doc`attachedRoots, doc`active
    modifies t`phase, t.ready, t.updateCallbackDone, t.finished
    ensures !AnyActive(Descendants(t.groups), animations) ==>
              && t.phase == Done
              && doc.queue == old(doc.queue) && doc.renderingSuppression == old(doc.renderingSuppression)
              && unchanged(t.ready, t.updateCallbackDone)
              && (old(doc.active) == t ==> outcome == Normal && Cleared(doc, t) && t.finished.status == Fulfilled)
              && (old(doc.active) != t ==> outcome == Thrown(ClearAssertion) && unchanged(doc, t.finished))
    ensures AnyActive(Descendants(t.groups), animations) && t.initialSnapshotContainingBlockSize != Some(doc.snapshotContainingBlockSize) ==>
              && (old(t.phase) == Done ==> outcome == Thrown(SkipAssertion) && unchanged(doc, t, t.ready, t.updateCallbackDone, t.finished))
              && (old(t.phase) != Done ==> outcome == Normal && Skipped(doc, t))
    ensures AnyActive(Descendants(t.groups), animations) && t.initialSnapshotContainingBlockSize == Some(doc.snapshotContainingBlockSize) ==>
              outcome == Normal && unchanged(doc, t, t.ready, t.updateCallbackDone, t.finished)
  {
    var has := HasActiveAnimations(Descendants(t.groups), animations);
    if !has {
      t.phase := Done;
      outcome := ClearViewTransition(doc, t);
      if outcome.Thrown? {
        return;
      }
      t.finished.Resolve();
      return;
    }
    if t.initialSnapshotContainingBlockSize != Some(doc.snapshotContainingBlockSize) {
      outcome := SkipTheViewTransition(doc, t);
      return;
    }
    outcome := Normal;
  }

  /** Performing the pending transition operations, once per animation frame:
      sets up an active transition pending capture, then handles the frame of
      an animating one (reading the active transition anew, so its absence
      throws). `rearm` says whether the next frame is requested, which the
      last step does; a throw ends the chain of frames. `due` lists the
      transitions to activate next. */
  method PerformPendingOperations(doc: Document, scene: Scene, animations: PseudoNode -> seq<PlayState>)
    returns (outcome: Outcome, rearm: bool, due: seq<ViewTransition>)
    requires doc.Valid()
    modifies doc`queue, doc`renderingSuppression, doc`capturedFlags, doc`showTree, doc`attachedRoots, doc`active
    modifies if doc.active == null then {} else doc.active.Footprint()
    modifies QueuedTransitions(doc.queue)`phase, QueuedDonePromises(doc.queue)
    ensures doc.Valid()
    ensures old(doc.active) == null ==> outcome == Normal && !rearm && due == [] && unchanged(doc)
    ensures old(doc.active) != null ==> (rearm <==> outcome == Normal)
    ensures old(doc.active) != null && old(doc.active.phase) == UpdateCallbackCalled ==>
              rearm && due == [] && unchanged(doc)
    ensures old(doc.active) != null && old(doc.active.phase) == PendingCapture ==>
              && (GlobalObject in old(doc.queue) ==> outcome.Thrown? && outcome.error != NullActive)
              && (old(doc.queue) == [] ==> outcome == Normal || outcome == Thrown(NullActive))
    ensures old(doc.active) != null && old(doc.active.phase) == PendingCapture
            && outcome.Thrown? && outcome.error != NullActive ==>
              var t := old(doc.active);
              && outcome.error in {GlobalObjectQueued, CallAssertion, CallbackThrew} && !rearm
              && doc.active == t && doc.queue == old(doc.queue)
              && t.namedElements == old(t.namedElements)
              && doc.capturedFlags == old(doc.capturedFlags)
              && doc.renderingSuppression == old(doc.renderingSuppression)
              && (t !in QueuedTransitions(old(doc.queue)) ==> t.phase == PendingCapture)
    ensures old(doc.active) != null && old(doc.active.phase) == PendingCapture
            && old(doc.active) !in QueuedTransitions(old(doc.queue))
            && (outcome == Normal || outcome == Thrown(NullActive)) ==>
              var t := old(doc.active);
              var kept := Kept(scene.elements, scene.info);
              if Distinct(NamesOf(kept, scene.info)) then
                && outcome == Normal && rearm && doc.active == t
                && t.phase == UpdateCallbackCalled && doc.renderingSuppression
                && t.namedElements == StoreOld(old(t.namedElements), kept, scene.info, doc.snapshotContainingBlockSize)
                && doc.capturedFlags == old(doc.capturedFlags) - SetOf(Scanned(scene))
                && (t.updateCallback == Some(Throws) ==>
                      doc.queue == [Queued(t)] && due == TransitionsOf(old(doc.queue)))
                && (t.updateCallback != Some(Throws) ==>
                      && doc.queue == [] && due == TransitionsOf(old(doc.queue)) + [t]
                      && t.updateCallbackDone.status == Fulfilled)
              else
                && outcome == Thrown(NullActive) && !rearm && doc.active == null
                && t.namedElements == old(t.namedElements)
                && t.phase == Done && !doc.renderingSuppression
                && doc.queue == [GlobalObject]
                && t.ready.status == Rejected && t.finished.status == Fulfilled
                && due == TransitionsOf(old(doc.queue))
    ensures old(doc.active) != null && old(doc.active.phase) == Animating ==>
              var t := old(doc.active);
              && outcome == Normal && rearm && due == []
              && (!AnyActive(Descendants(t.groups), animations) ==>
                    && t.phase == Done && Cleared(doc, t) && t.finished.status == Fulfilled
                    && doc.queue == old(doc.queue) && doc.renderingSuppression == old(doc.renderingSuppression)
                    && unchanged(t.ready, t.updateCallbackDone))
              && (AnyActive(Descendants(t.groups), animations)
                  && t.initialSnapshotContainingBlockSize != Some(doc.snapshotContainingBlockSize) ==>
                    Skipped(doc, t))
              && (AnyActive(Descendants(t.groups), animations)
                  && t.initialSnapshotContainingBlockSize == Some(doc.snapshotContainingBlockSize) ==>
                    unchanged(doc, t, t.ready, t.updateCallbackDone, t.finished))
  {
    due := [];
    if doc.active == null {
      return Normal, false, [];
    }
    var t := doc.active;
    if t.phase == PendingCapture {
      outcome, due := SetupViewTransition(doc, t, scene);
      if outcome.Thrown? {
        return outcome, false, due;
      }
    }
    if doc.active == null {
      return Thrown(NullActive), false, due;
    }
    if doc.active.phase == Animating {
      outcome := HandleTransitionFrame(doc, doc.active, animations);
      if outcome.Thrown? {
        return outcome, false, due;
      }
    }
    outcome, rearm := Normal, true;
  }
}

=== FILE: promises.dfy ===
/** `WatchablePromise`: a promise whose state can be read back, with its
    resolvers exposed. The value and the reason are not modelled: the exposed
    `resolve()` and `reject()` take no argument and pass none on, so every
    fulfilment value and rejection reason is `undefined`. */
module Promises {

  datatype Status = Pending | Fulfilled | Rejected

  class WatchablePromise {
    var settled: bool
    var status: Status

    /** Settled exactly when the status is no longer pending. */
    predicate Valid()
      reads this
    {
      settled <==> status != Pending
    }

    constructor ()
      ensures Valid() && !settled && status == Pending
    {
      settled := false;
      status := Pending;
    }

    /** Nothing guards a second settlement: the recorded status follows the
        most recent call, even though the underlying promise keeps its first
        outcome. */
    method Resolve()
      modifies this
      ensures Valid() && settled && status == Fulfilled
    {
      settled := true;
      status := Fulfilled;
    }

    method Reject()
      modifies this
      ensures Valid() && settled && status == Rejected
    {
      settled := true;
      status := Rejected;
    }
  }
}

=== FILE: pseudo_elements.dfy ===
/** Building the pseudo-element tree of a transition and the rules that
    animate and size it: setting up the transition pseudo-elements, and
    updating the pseudo-element styles. */
module PseudoElements {
  import opened Common
  import opened Scene
  import opened StyleSheets
  import opened Transitions
  import opened Documents
  import opened Captures

  // ---------------------------------------------------------------------------
  // Setting up the transition pseudo-elements
  // ---------------------------------------------------------------------------

  /** A record with neither an old nor a new image: the assertions of steps
      3.7.1 and 3.8.1 fail on it. */
  predicate Imageless(c: CapturedElement)
  {
    c.oldImage.None? && c.newImage.None?
  }

  /** The group a record gets: its image pair holds an old image
      pseudo-element when the record has an old image, and a new one when it
      has a new image. */
  function GroupOf(n: string, c: CapturedElement): GroupPseudo
  {
    GroupPseudo(n, c.oldImage, c.newImage)
  }

  /** The rules the set-up step appends for a record, in the order it appends
      them. */
  function SetupTexts(n: string, c: CapturedElement): (r: seq<RuleText>)
    requires !Imageless(c)
    ensures |r| == SetupCount(c)
  {
    if c.oldImage.None? then [FadeIn(n)]
    else if c.newImage.None? then [FadeOut(n)]
    else [GroupKeyframes(n, c.oldTransform, c.oldWidth, c.oldHeight), GroupAnimationName(n), ImagePairIsolation(n), CrossFade(n)]
  }

  /** How many rules the set-up step appends for a record. */
  function SetupCount(c: CapturedElement): nat
  {
    if c.oldImage.Some? && c.newImage.Some? then 4 else 1
  }

  /** A record's style definitions once the set-up step has created its
      rules `added`, in the order `SetupTexts` lists them. The two-sided case
      writes the isolation rule under `imagePairIsolationRule`, not under the
      declared `imagePareIsolationRule`. */
  function SetupDefinitions(c: CapturedElement, added: seq<Rule>): StyleDefinitions
    requires !Imageless(c) && |added| == SetupCount(c)
  {
    var d := c.styleDefinitions;
    if c.oldImage.None? || c.newImage.None? then d.(imageAnimationNameRule := added[0])
    else d.(groupKeyframes := added[0], groupAnimationNameRule := added[1],
            imagePairIsolationRule := added[2], imageAnimationNameRule := added[3])
  }

  /** The pseudo-elements a rule styles. */
  function Targets(r: RuleText): set<PseudoNode>
  {
    match r
    case FadeIn(n) => {NewNode(n)}
    case FadeOut(n) => {OldNode(n)}
    case GroupKeyframes(_, _, _, _) => {}
    case GroupAnimationName(n) => {GroupNode(n)}
    case ImagePairIsolation(n) => {ImagePairNode(n)}
    case CrossFade(n) => {OldNode(n), NewNode(n)}
    case GroupStyles(n, _) => {GroupNode(n)}
  }

  /** The rules set up for a record style only pseudo-elements of that
      record's group that exist: the fade-in rule needs a new image, the
      fade-out rule an old one, and the cross-fade both. A one-sided record
      gets a single image animation rule, a two-sided one four rules. */
  lemma SetupTextsStyleExistingNodes(n: string, c: CapturedElement)
    requires !Imageless(c)
    ensures forall r :: r in SetupTexts(n, c) ==> Targets(r) <= set x | x in Descendants([GroupOf(n, c)])
    ensures |SetupTexts(n, c)| == (if c.oldImage.Some? && c.newImage.Some? then 4 else 1)
    ensures (FadeIn(n) in SetupTexts(n, c) <==> c.oldImage.None?)
    ensures (FadeOut(n) in SetupTexts(n, c) <==> c.newImage.None?)
  {
    assert Descendants([GroupOf(n, c)][1..]) == [];
  }

  /** The texts the set-up step appends for the records of `names`, in
      order. */
  function AllSetupTexts(ne: NamedMap, names: seq<string>): seq<RuleText>
    requires forall n :: n in names ==> ne.Has(n) && !Imageless(ne.Get(n))
  {
    if |names| == 0 then []
    else
      var n := names[|names| - 1];
      AllSetupTexts(ne, names[..|names| - 1]) + SetupTexts(n, ne.Get(n))
  }

  /** The groups the set-up step appends for the records of `names`. */
  function GroupsOf(ne: NamedMap, names: seq<string>): seq<GroupPseudo>
    requires forall n :: n in names ==> ne.Has(n)
  {
    seq(|names|, i requires 0 <= i < |names| => GroupOf(names[i], ne.Get(names[i])))
  }

  /** Where the set-up step stops: at the first record, in map order, with no
      image at all, or after the last record. */
  function SetupStop(ne: NamedMap): (k: nat)
    ensures k <= |ne.names|
    ensures forall j :: 0 <= j < k ==> !Imageless(ne.Get(ne.names[j]))
    ensures k < |ne.names| ==> Imageless(ne.Get(ne.names[k]))
  {
    StopFrom(ne, 0)
  }

  function StopFrom(ne: NamedMap, i: nat): (k: nat)
    requires i <= |ne.names|
    ensures i <= k <= |ne.names|
    ensures forall j :: i <= j < k ==> !Imageless(ne.Get(ne.names[j]))
    ensures k < |ne.names| ==> Imageless(ne.Get(ne.names[k]))
    decreases |ne.names| - i
  {
    if i == |ne.names| || Imageless(ne.Get(ne.names[i])) then i else StopFrom(ne, i + 1)
  }

  /** A record with an image does not stop the set-up step. */
  lemma SetupStopPast(ne: NamedMap, i: nat)
    requires i < |ne.names| && i <= SetupStop(ne) && !Imageless(ne.Get(ne.names[i]))
    ensures i + 1 <= SetupStop(ne)
  {
  }

  /** Every record of the map has an old or a new image. */
  ghost predicate AllHaveImages(ne: NamedMap)
  {
    forall n :: ne.Has(n) ==> !Imageless(ne.Get(n))
  }

  lemma {:induction false} StoreOldKeepsImages(ne: NamedMap, elems: seq<ElementId>, info: ElementId -> ElementInfo, scb: Size)
    requires AllHaveImages(ne)
    ensures AllHaveImages(StoreOld(ne, elems, info, scb))
  {
    if |elems| > 0 {
      StoreOldKeepsImages(ne, elems[..|elems| - 1], info, scb);
    }
  }

  lemma {:induction false} StoreNewKeepsImages(ne: NamedMap, elems: seq<ElementId>, info: ElementId -> ElementInfo)
    requires AllHaveImages(ne)
    ensures AllHaveImages(StoreNew(ne, elems, info))
  {
    if |elems| > 0 {
      StoreNewKeepsImages(ne, elems[..|elems| - 1], info);
    }
  }

  /** The records the two capture passes leave in a fresh transition, whether
      or not the new-state pass fails part way, all have an image: the old
      pass gives each an old image and the new pass gives a new image to each
      record it creates. So setting up the pseudo-elements never reaches its
      failing assertion for them. */
  lemma CapturedRecordsHaveImages(before: Scene, after: Scene, scb: Size)
    ensures var ne := StoreNew(StoreOld(NoNamedElements, Kept(before.elements, before.info), before.info, scb),
                               Scanned(after), after.info);
            AllHaveImages(ne) && SetupStop(ne) == |ne.names|
  {
    StoreOldKeepsImages(NoNamedElements, Kept(before.elements, before.info), before.info, scb);
    StoreNewKeepsImages(StoreOld(NoNamedElements, Kept(before.elements, before.info), before.info, scb),
                        Scanned(after), after.info);
  }

  /** Two records agree on everything the captures wrote, and on the two
      style definitions the set-up step never writes. */
  predicate SameCapture(c: CapturedElement, d: CapturedElement)
  {
    && c.(styleDefinitions := NoStyleDefinitions) == d.(styleDefinitions := NoStyleDefinitions)
    && c.styleDefinitions.groupStylesRule == d.styleDefinitions.groupStylesRule
    && c.styleDefinitions.imagePareIsolationRule == d.styleDefinitions.imagePareIsolationRule
  }

  /** Creates a rule with the given text and appends it to the sheet. */
  method AppendRule(doc: Document, text: RuleText) returns (r: Rule)
    requires doc.sheet.Valid()
    modifies doc.sheet
    ensures doc.sheet.Valid() && fresh(r) && r.text == text
    ensures doc.sheet.rules == old(doc.sheet.rules) + [r]
  {
    r := new Rule(text);
    doc.sheet.InsertRule(r);
  }

  /** Steps 3.9.4 to 3.9.7: the four rules of a record with both images. */
  method AppendTwoSidedRules(doc: Document, n: string, c: CapturedElement) returns (added: seq<Rule>)
    requires doc.sheet.Valid() && c.oldImage.Some? && c.newImage.Some?
    modifies doc.sheet
    ensures doc.sheet.Valid()
    ensures doc.sheet.rules == old(doc.sheet.rules) + added
    ensures Texts(added) == SetupTexts(n, c)
    ensures forall r :: r in added ==> fresh(r)
  {
    var keyframes := AppendRule(doc, GroupKeyframes(n, c.oldTransform, c.oldWidth, c.oldHeight));
    var animationName := AppendRule(doc, GroupAnimationName(n));
    var isolation := AppendRule(doc, ImagePairIsolation(n));
    var crossFade := AppendRule(doc, CrossFade(n));
    added := [keyframes, animationName, isolation, crossFade];
  }

  /** `rules` is `before` followed by rules created since the enclosing
      method began. */
  twostate predicate Extends(before: seq<Rule>, new rules: seq<Rule>)
  {
    && |before| <= |rules| && rules[..|before|] == before
    && forall r :: r in rules[|before|..] ==> fresh(r)
  }

  /** A sheet extended twice is extended once. */
  twostate lemma ExtendsTrans(a: seq<Rule>, new b: seq<Rule>, new c: seq<Rule>)
    requires Extends(a, b) && |b| <= |c| && c[..|b|] == b
    requires forall r :: r in c[|b|..] ==> fresh(r)
    ensures Extends(a, c)
  {
    assert c[|a|..] == b[|a|..] + c[|b|..];
  }

  /** Steps 3.1 to 3.9 for one record: appends its group, then throws if the
      record has no image, and otherwise creates and appends the record's
      rules and stores them in its style definitions. */
  method SetupRecord(doc: Document, t: ViewTransition, n: string) returns (outcome: Outcome)
    requires doc.sheet.Valid() && t.namedElements.Has(n)
    modifies doc.sheet, t`groups, t`namedElements
    ensures doc.sheet.Valid()
    ensures t.groups == old(t.groups) + [GroupOf(n, old(t.namedElements.Get(n)))]
    ensures Imageless(old(t.namedElements.Get(n))) ==>
              && outcome == Thrown(MissingImages)
              && doc.sheet.rules == old(doc.sheet.rules)
              && t.namedElements == old(t.namedElements)
    ensures !Imageless(old(t.namedElements.Get(n))) ==>
              && outcome == Normal
              && Extends(old(doc.sheet.rules), doc.sheet.rules)
              && |old(doc.sheet.rules)| <= |doc.sheet.rules|
              && doc.sheet.rules[..|old(doc.sheet.rules)|] == old(doc.sheet.rules)
              && var c := old(t.namedElements.Get(n));
                 var added := doc.sheet.rules[|old(doc.sheet.rules)|..];
                 && Texts(added) == SetupTexts(n, c)
                 && t.namedElements == old(t.namedElements).Set(n, c.(styleDefinitions := SetupDefinitions(c, added)))
  {
    var c := t.namedElements.Get(n);
    t.groups := t.groups + [GroupOf(n, c)];
    if c.oldImage.None? && c.newImage.None? {
      return Thrown(MissingImages);
    }
    ghost var before := doc.sheet.rules;
    var added: seq<Rule>;
    var d := c.styleDefinitions;
    if c.oldImage.None? {
      var fade := AppendRule(doc, FadeIn(n));
      d := d.(imageAnimationNameRule := fade);
      added := [fade];
    }
    if c.newImage.None? {
      var fade := AppendRule(doc, FadeOut(n));
      d := d.(imageAnimationNameRule := fade);
      added := [fade];
    }
    if c.oldImage.Some? && c.newImage.Some? {
      added := AppendTwoSidedRules(doc, n, c);
      d := d.(groupKeyframes := added[0], groupAnimationNameRule := added[1],
              imagePairIsolationRule := added[2], imageAnimationNameRule := added[3]);
    }
    assert doc.sheet.rules == before + added;
    assert doc.sheet.rules[|before|..] == added;
    t.namedElements := t.namedElements.Set(n, c.(styleDefinitions := d));
    outcome := Normal;
  }

  /** The state after the set-up step has dealt with the first `i` records of
      `ne` without throwing: the map has the same keys and captured data,
      their groups have been appended to `groups0` and their rules to
      `rules0`. */
  ghost predicate SetUpTo(ne: NamedMap, i: nat, cur: NamedMap, groups0: seq<GroupPseudo>, groups: seq<GroupPseudo>,
                          rules0: seq<Rule>, rules: seq<Rule>)
  {
    && i <= SetupStop(ne)
    && cur.names == ne.names
    && (forall n :: ne.Has(n) ==> cur.Has(n) && SameCapture(cur.Get(n), ne.Get(n)))
    && groups == groups0 + GroupsOf(ne, ne.names[..i])
    && Texts(rules) == Texts(rules0) + AllSetupTexts(ne, ne.names[..i])
  }

  /** The definitions `d` hold a rule in every field the set-up step writes
      for a record shaped like `c`. */
  predicate StoresSetupRules(c: CapturedElement, d: StyleDefinitions)
  {
    if c.oldImage.Some? && c.newImage.Some? then
      && d.groupKeyframes != null && d.groupAnimationNameRule != null
      && d.imagePairIsolationRule != null && d.imageAnimationNameRule != null
    else d.imageAnimationNameRule != null
  }

  /** Those rules, in the order the set-up step appends them. */
  function StoredSetupRules(c: CapturedElement, d: StyleDefinitions): seq<Rule>
    requires StoresSetupRules(c, d)
  {
    if c.oldImage.Some? && c.newImage.Some? then
      [d.groupKeyframes, d.groupAnimationNameRule, d.imagePairIsolationRule, d.imageAnimationNameRule]
    else [d.imageAnimationNameRule]
  }

  /** The definitions `d` are those the set-up step gives record `n`, once
      captured as `c`: every field it writes holds a rule with the text it
      appends for that field, and every other field, bar the group styles rule
      that the style update rewrites later, is still `c`'s. */
  ghost predicate SetUpFrom(c: CapturedElement, d: StyleDefinitions, n: string)
  {
    && !Imageless(c)
    && StoresSetupRules(c, d)
    && Texts(StoredSetupRules(c, d)) == SetupTexts(n, c)
    && d.(groupStylesRule := c.styleDefinitions.groupStylesRule) == SetupDefinitions(c, StoredSetupRules(c, d))
  }

  /** The records of `cur` after the set-up step has dealt with the first `i`
      records of `ne`: those have their set-up definitions, the others are
      untouched. */
  ghost predicate DefinedUpTo(ne: NamedMap, i: nat, cur: NamedMap)
  {
    && i <= |ne.names|
    && forall n :: ne.Has(n) ==>
         && cur.Has(n)
         && (if n in ne.names[..i] then SetUpFrom(ne.Get(n), cur.Get(n).styleDefinitions, n)
             else cur.Get(n) == ne.Get(n))
  }

  /** One record's step keeps `DefinedUpTo`. */
  lemma DefinedAdvance(ne: NamedMap, i: nat, cur: NamedMap, cur': NamedMap, added: seq<Rule>)
    requires i < |ne.names| && DefinedUpTo(ne, i, cur) && cur.Has(ne.names[i])
    requires var n := ne.names[i];
             var c := cur.Get(n);
             && !Imageless(c) && |added| == SetupCount(c) && Texts(added) == SetupTexts(n, c)
             && cur' == cur.Set(n, c.(styleDefinitions := SetupDefinitions(c, added)))
    ensures DefinedUpTo(ne, i + 1, cur')
  {
    var n := ne.names[i];
    assert ne.names[..i + 1] == ne.names[..i] + [n];
    assert n !in ne.names[..i] by {
      forall j | 0 <= j < i
        ensures ne.names[..i][j] != n
      {
        assert ne.names[..i][j] == ne.names[j];
      }
    }
    assert ne.Has(n);
    var c := cur.Get(n);
    assert StoredSetupRules(c, SetupDefinitions(c, added)) == added;
  }

  /** One iteration of step 3: sets up the `i`th record of `ne`. */
  method SetupNext(doc: Document, t: ViewTransition, ghost ne: NamedMap, i: nat,
                   ghost groups0: seq<GroupPseudo>, ghost rules0: seq<Rule>) returns (outcome: Outcome)
    requires doc.sheet.Valid() && i < |ne.names|
    requires SetUpTo(ne, i, t.namedElements, groups0, t.groups, rules0, doc.sheet.rules)
    requires DefinedUpTo(ne, i, t.namedElements)
    modifies doc.sheet, t`groups, t`namedElements
    ensures doc.sheet.Valid()
    ensures outcome.Thrown? ==>
              && outcome == Thrown(MissingImages) && SetupStop(ne) == i
              && t.namedElements == old(t.namedElements) && doc.sheet.rules == old(doc.sheet.rules)
              && t.groups == groups0 + GroupsOf(ne, ne.names[..i + 1])
    ensures outcome == Normal ==>
              && SetUpTo(ne, i + 1, t.namedElements, groups0, t.groups, rules0, doc.sheet.rules)
              && DefinedUpTo(ne, i + 1, t.namedElements)
              && Extends(old(doc.sheet.rules), doc.sheet.rules)
  {
    var n := t.namedElements.names[i];
    ghost var cur := t.namedElements;
    ghost var groups := t.groups;
    ghost var before := doc.sheet.rules;
    outcome := SetupRecord(doc, t, n);
    if outcome.Thrown? {
      SetupThrown(ne, i, cur, groups0, groups, t.groups, rules0, before);
      return;
    }
    SetupStep(ne, i, cur, t.namedElements, groups0, groups, t.groups, rules0, before, doc.sheet.rules);
  }

  /** The bookkeeping of an iteration of step 3 that throws: the record has
      no image, so it is where the step stops, and its group was appended. */
  lemma SetupThrown(ne: NamedMap, i: nat, cur: NamedMap, groups0: seq<GroupPseudo>, groups: seq<GroupPseudo>,
                    groups': seq<GroupPseudo>, rules0: seq<Rule>, rules: seq<Rule>)
    requires i < |ne.names| && SetUpTo(ne, i, cur, groups0, groups, rules0, rules)
    requires var n := ne.names[i];
             && Imageless(cur.Get(n))
             && groups' == groups + [GroupOf(n, cur.Get(n))]
    ensures SetupStop(ne) == i && groups' == groups0 + GroupsOf(ne, ne.names[..i + 1])
  {
    var n := ne.names[i];
    SameCaptureSetup(cur.Get(n), ne.Get(n), n);
    SetupAdvanceGroups(ne, i, groups0, groups, groups');
  }

  /** Both halves of the bookkeeping of one iteration of step 3. */
  lemma SetupStep(ne: NamedMap, i: nat, cur: NamedMap, cur': NamedMap,
                  groups0: seq<GroupPseudo>, groups: seq<GroupPseudo>, groups': seq<GroupPseudo>,
                  rules0: seq<Rule>, rules: seq<Rule>, rules': seq<Rule>)
    requires i < |ne.names| && SetUpTo(ne, i, cur, groups0, groups, rules0, rules) && DefinedUpTo(ne, i, cur)
    requires var n := ne.names[i];
             var c := cur.Get(n);
             && !Imageless(c)
             && groups' == groups + [GroupOf(n, c)]
             && |rules| <= |rules'| && rules'[..|rules|] == rules
             && Texts(rules'[|rules|..]) == SetupTexts(n, c)
             && cur' == cur.Set(n, c.(styleDefinitions := SetupDefinitions(c, rules'[|rules|..])))
    ensures SetUpTo(ne, i + 1, cur', groups0, groups', rules0, rules') && DefinedUpTo(ne, i + 1, cur')
  {
    SetupAdvance(ne, i, cur, cur', groups0, groups, groups', rules0, rules, rules');
    DefinedAdvance(ne, i, cur, cur', rules'[|rules|..]);
  }

  /** The bookkeeping of one iteration of step 3, on values. */
  lemma SetupAdvance(ne: NamedMap, i: nat, cur: NamedMap, cur': NamedMap,
                     groups0: seq<GroupPseudo>, groups: seq<GroupPseudo>, groups': seq<GroupPseudo>,
                     rules0: seq<Rule>, rules: seq<Rule>, rules': seq<Rule>)
    requires i < |ne.names| && SetUpTo(ne, i, cur, groups0, groups, rules0, rules)
    requires var n := ne.names[i];
             var c := cur.Get(n);
             && !Imageless(c)
             && groups' == groups + [GroupOf(n, c)]
             && |rules| <= |rules'| && rules'[..|rules|] == rules
             && Texts(rules'[|rules|..]) == SetupTexts(n, c)
             && cur' == cur.Set(n, c.(styleDefinitions := SetupDefinitions(c, rules'[|rules|..])))
    ensures SetUpTo(ne, i + 1, cur', groups0, groups', rules0, rules')
  {
    var n := ne.names[i];
    var added := rules'[|rules|..];
    SameCaptureSetup(cur.Get(n), ne.Get(n), n);
    SetupStopPast(ne, i);
    SetupAdvanceMap(ne, i, cur, cur', added);
    SetupAdvanceGroups(ne, i, groups0, groups, groups');
    assert rules' == rules + added;
    SetupAdvanceTexts(ne, i, rules0, rules, added);
  }

  /** Restyling keeps the set-up definitions, which leave the group styles
      rule aside. */
  lemma SetUpFromRestyled(c: CapturedElement, mid: CapturedElement, d: CapturedElement, n: string,
                          info: ElementId -> ElementInfo, scb: Size)
    requires SetUpFrom(c, mid.styleDefinitions, n) && Restyled(mid, d, n, info, scb)
    ensures SetUpFrom(c, d.styleDefinitions, n)
  {
    assert StoredSetupRules(c, d.styleDefinitions) == StoredSetupRules(c, mid.styleDefinitions);
  }

  /** Restyling every record of a map keeps the set-up definitions of all of
      them. */
  lemma DefinedAfterRestyle(ne: NamedMap, mid: NamedMap, cur: NamedMap, info: ElementId -> ElementInfo, scb: Size)
    requires DefinedUpTo(ne, |ne.names|, mid) && mid.names == ne.names && cur.names == ne.names
    requires forall j :: 0 <= j < |ne.names| ==>
               Restyled(mid.Get(ne.names[j]), cur.Get(ne.names[j]), ne.names[j], info, scb)
    ensures DefinedUpTo(ne, |ne.names|, cur)
  {
    assert ne.names[..|ne.names|] == ne.names;
    forall n | ne.Has(n)
      ensures cur.Has(n) && SetUpFrom(ne.Get(n), cur.Get(n).styleDefinitions, n)
    {
      var j :| 0 <= j < |ne.names| && ne.names[j] == n;
      SetUpFromRestyled(ne.Get(n), mid.Get(n), cur.Get(n), n, info, scb);
    }
  }

  /** Records that agree on what the captures wrote get the same group and
      the same rules. */
  lemma SameCaptureSetup(c: CapturedElement, d: CapturedElement, n: string)
    requires SameCapture(c, d)
    ensures Imageless(c) == Imageless(d) && GroupOf(n, c) == GroupOf(n, d) && SetupCount(c) == SetupCount(d)
    ensures !Imageless(c) ==> SetupTexts(n, c) == SetupTexts(n, d)
  {
    assert c.oldImage == c.(styleDefinitions := NoStyleDefinitions).oldImage;
    assert d.oldImage == d.(styleDefinitions := NoStyleDefinitions).oldImage;
  }

  lemma SetupAdvanceMap(ne: NamedMap, i: nat, cur: NamedMap, cur': NamedMap, added: seq<Rule>)
    requires i < |ne.names| && cur.names == ne.names
    requires forall n :: ne.Has(n) ==> cur.Has(n) && SameCapture(cur.Get(n), ne.Get(n))
    requires var n := ne.names[i];
             var c := cur.Get(n);
             && !Imageless(c) && |added| == SetupCount(c)
             && cur' == cur.Set(n, c.(styleDefinitions := SetupDefinitions(c, added)))
    ensures cur'.names == ne.names
    ensures forall n :: ne.Has(n) ==> cur'.Has(n) && SameCapture(cur'.Get(n), ne.Get(n))
  {
  }

  lemma SetupAdvanceGroups(ne: NamedMap, i: nat, groups0: seq<GroupPseudo>, groups: seq<GroupPseudo>, groups': seq<GroupPseudo>)
    requires i < |ne.names|
    requires groups == groups0 + GroupsOf(ne, ne.names[..i])
    requires groups' == groups + [GroupOf(ne.names[i], ne.Get(ne.names[i]))]
    ensures groups' == groups0 + GroupsOf(ne, ne.names[..i + 1])
  {
    assert ne.names[..i + 1][..i] == ne.names[..i];
  }

  lemma SetupAdvanceTexts(ne: NamedMap, i: nat, rules0: seq<Rule>, rules: seq<Rule>, added: seq<Rule>)
    requires i < SetupStop(ne)
    requires Texts(rules) == Texts(rules0) + AllSetupTexts(ne, ne.names[..i])
    requires Texts(added) == SetupTexts(ne.names[i], ne.Get(ne.names[i]))
    ensures Texts(rules + added) == Texts(rules0) + AllSetupTexts(ne, ne.names[..i + 1])
  {
    assert ne.names[..i + 1][..i] == ne.names[..i];
    TextsAppend(rules, added);
  }

  /** Step 3 of setting up the transition pseudo-elements: sets up each
      record in map order, stopping with an exception at the first record that
      has no image. */
  method SetupRecords(doc: Document, t: ViewTransition) returns (outcome: Outcome)
    requires doc.sheet.Valid()
    modifies doc.sheet, t`groups, t`namedElements
    ensures doc.sheet.Valid()
    ensures var ne := old(t.namedElements);
            var k := SetupStop(ne);
            && (outcome == Normal <==> k == |ne.names|)
            && (outcome != Normal ==> outcome == Thrown(MissingImages))
            && t.groups == old(t.groups) + GroupsOf(ne, ne.names[..if k < |ne.names| then k + 1 else k])
            && Texts(doc.sheet.rules) == Texts(old(doc.sheet.rules)) + AllSetupTexts(ne, ne.names[..k])
            && t.namedElements.names == ne.names
            && (forall n :: ne.Has(n) ==> t.namedElements.Has(n) && SameCapture(t.namedElements.Get(n), ne.Get(n)))
            && DefinedUpTo(ne, k, t.namedElements)
    ensures Extends(old(doc.sheet.rules), doc.sheet.rules)
  {
    ghost var ne := t.namedElements;
    var names := t.namedElements.names;
    var i := 0;
    while i < |names|
      invariant doc.sheet.Valid()
      invariant SetUpTo(ne, i, t.namedElements, old(t.groups), t.groups, old(doc.sheet.rules), doc.sheet.rules)
      invariant DefinedUpTo(ne, i, t.namedElements)
      invariant Extends(old(doc.sheet.rules), doc.sheet.rules)
    {
      ghost var before := doc.sheet.rules;
      outcome := SetupNext(doc, t, ne, i, old(t.groups), old(doc.sheet.rules));
      if outcome.Thrown? {
        return;
      }
      ExtendsTrans(old(doc.sheet.rules), before, doc.sheet.rules);
      i := i + 1;
    }
    assert names[..i] == names;
    outcome := Normal;
  }

  /** Setting up the transition pseudo-elements: shows the transition tree,
      then sets up the records. Showing the tree reads the active transition,
      so with none active it throws before any record is set up. */
  method SetupTransitionPseudoElements(doc: Document, t: ViewTransition) returns (outcome: Outcome)
    requires doc.sheet.Valid()
    modifies doc`showTree, doc`attachedRoots, doc.sheet, t`groups, t`namedElements
    ensures doc.sheet.Valid() && doc.showTree
    ensures old(doc.active) == null ==>
              && outcome == Thrown(NullActive)
              && doc.sheet.rules == old(doc.sheet.rules)
              && t.groups == old(t.groups) && t.namedElements == old(t.namedElements)
    ensures RootShown(doc.attachedRoots, old(doc.attachedRoots), doc.active)
    ensures old(doc.active) != null ==>
              var ne := old(t.namedElements);
              var k := SetupStop(ne);
              && (outcome == Normal <==> k == |ne.names|)
              && (outcome != Normal ==> outcome == Thrown(MissingImages))
              && t.groups == old(t.groups) + GroupsOf(ne, ne.names[..if k < |ne.names| then k + 1 else k])
              && Texts(doc.sheet.rules) == Texts(old(doc.sheet.rules)) + AllSetupTexts(ne, ne.names[..k])
              && t.namedElements.names == ne.names
              && (forall n :: ne.Has(n) ==> t.namedElements.Has(n) && SameCapture(t.namedElements.Get(n), ne.Get(n)))
              && DefinedUpTo(ne, k, t.namedElements)
    ensures Extends(old(doc.sheet.rules), doc.sheet.rules)
  {
    outcome := SetShowViewTransitionTree(doc, true);
    if outcome.Thrown? {
      return;
    }
    outcome := SetupRecords(doc, t);
  }

  // ---------------------------------------------------------------------------
  // Updating the pseudo-element styles
  // ---------------------------------------------------------------------------

  /** The declarations of a record's group styles rule: the old geometry and
      styles when the record has no new element, otherwise those of the new
      element as it is now (the snapshot containing block at the origin for
      the document element). */
  function GroupBlock(c: CapturedElement, info: ElementId -> ElementInfo, scb: Size): GroupStyleBlock
  {
    match c.newElement
    case None => GroupStyleBlock(c.oldWidth, c.oldHeight, c.oldTransform, c.oldStyle)
    case Some(e) =>
      var r := CaptureRect(info(e), scb);
      GroupStyleBlock(r.width, r.height, Translate(r.x, r.y), Some(info(e).style))
  }

  /** An element that has not changed since the old state was captured gets
      the same group styles from its live box as from its old capture, and a
      record without a new element keeps the styles of its old capture. */
  lemma GroupBlockOfUnchangedElement(x: ElementInfo, e: ElementId, img: Image, info: ElementId -> ElementInfo, scb: Size)
    requires info(e) == x
    ensures GroupBlock(OldCapture(x, scb).(newElement := Some(e), newImage := Some(img)), info, scb)
            == GroupBlock(OldCapture(x, scb), info, scb)
    ensures GroupBlock(OldCapture(x, scb), info, scb)
            == GroupStyleBlock(CaptureRect(x, scb).width, CaptureRect(x, scb).height,
                               Translate(CaptureRect(x, scb).x, CaptureRect(x, scb).y), Some(x.style))
  {
  }

  /** Steps 1.1 to 1.4 for one record: builds the group styles rule and
      appends it to the sheet, first deleting the record's previous group
      styles rule when it has one. Step 1.5 tests a misspelt field that is
      never set, so it never runs. */
  method UpdateRecordStyles(doc: Document, t: ViewTransition, n: string, info: ElementId -> ElementInfo)
    requires doc.sheet.Valid() && t.namedElements.Has(n)
    modifies doc.sheet, t`namedElements
    ensures doc.sheet.Valid()
    ensures t.namedElements.Has(n)
    ensures var c := old(t.namedElements.Get(n));
            var r := t.namedElements.Get(n).styleDefinitions.groupStylesRule;
            && r != null && fresh(r)
            && r.text == GroupStyles(n, GroupBlock(c, info, doc.snapshotContainingBlockSize))
            && t.namedElements == old(t.namedElements).Set(n, c.(styleDefinitions := c.styleDefinitions.(groupStylesRule := r)))
            && doc.sheet.rules == (if c.styleDefinitions.groupStylesRule == null then old(doc.sheet.rules)
                                   else RemoveFirst<Rule>(old(doc.sheet.rules), c.styleDefinitions.groupStylesRule)) + [r]
  {
    var c := t.namedElements.Get(n);
    var rule := new Rule(GroupStyles(n, GroupBlock(c, info, doc.snapshotContainingBlockSize)));
    doc.sheet.ReplaceRule(c.styleDefinitions.groupStylesRule, rule);
    t.namedElements := t.namedElements.Set(n, c.(styleDefinitions := c.styleDefinitions.(groupStylesRule := rule)));
  }

  /** The group styles rules the records of a map hold. */
  function GroupStylesRules(ne: NamedElements): set<Rule>
  {
    set n | n in ne.records && ne.records[n].styleDefinitions.groupStylesRule != null
      :: ne.records[n].styleDefinitions.groupStylesRule
  }

  /** `d` is `c` with a new group styles rule for the name `n`, sized after
      `c`. */
  ghost predicate Restyled(c: CapturedElement, d: CapturedElement, n: string, info: ElementId -> ElementInfo, scb: Size)
  {
    && d.styleDefinitions.groupStylesRule != null
    && d == c.(styleDefinitions := c.styleDefinitions.(groupStylesRule := d.styleDefinitions.groupStylesRule))
    && d.styleDefinitions.groupStylesRule.text == GroupStyles(n, GroupBlock(c, info, scb))
  }

  /** The state after the update has dealt with the first `i` records of
      `ne`: each of them has a new group styles rule, present once in the
      sheet and none of the rules there before; the other records are as they
      were; and every rule of the sheet `rules0` that is not a group styles
      rule of `ne` is there as often as before. */
  ghost predicate StyledUpTo(ne: NamedMap, i: nat, cur: NamedMap, info: ElementId -> ElementInfo, scb: Size,
                             rules0: seq<Rule>, rules: seq<Rule>)
  {
    && i <= |ne.names|
    && cur.names == ne.names
    && (forall j :: 0 <= j < i ==>
          && Restyled(ne.Get(ne.names[j]), cur.Get(ne.names[j]), ne.names[j], info, scb)
          && multiset(rules)[cur.Get(ne.names[j]).styleDefinitions.groupStylesRule] == 1
          && cur.Get(ne.names[j]).styleDefinitions.groupStylesRule !in rules0
          && cur.Get(ne.names[j]).styleDefinitions.groupStylesRule !in GroupStylesRules(ne))
    && (forall j :: i <= j < |ne.names| ==> cur.Get(ne.names[j]) == ne.Get(ne.names[j]))
    && (forall r :: r in rules0 && r !in GroupStylesRules(ne) ==> multiset(rules)[r] == multiset(rules0)[r])
  }

  /** Replacing `g` by the new rule `r` leaves the count of every other rule
      alone and puts `r` in once. */
  lemma ReplaceCounts(rules: seq<Rule>, g: Rule?, r: Rule, rules': seq<Rule>)
    requires r !in rules
    requires rules' == (if g == null then rules else RemoveFirst<Rule>(rules, g)) + [r]
    ensures multiset(rules')[r] == 1
    ensures forall x :: x != g && x != r ==> multiset(rules')[x] == multiset(rules)[x]
  {
    if g != null {
      RemoveFirstCount<Rule>(rules, g);
    }
  }

  /** Setting the `i`th name of a map with the names of `ne` leaves every other
      record alone. */
  lemma SetOthers(ne: NamedMap, i: nat, cur: NamedMap, x: CapturedElement)
    requires i < |ne.names| && cur.names == ne.names
    ensures cur.Set(ne.names[i], x).names == ne.names
    ensures cur.Set(ne.names[i], x).Get(ne.names[i]) == x
    ensures forall j :: 0 <= j < |ne.names| && j != i ==>
              cur.Set(ne.names[i], x).Get(ne.names[j]) == cur.Get(ne.names[j])
  {
    assert ne.names[i] in cur.names;
    forall j | 0 <= j < |ne.names| && j != i
      ensures ne.names[j] != ne.names[i]
    {
      assert Distinct(ne.names);
    }
  }

  /** One iteration of the update, on values: `cur'` is `cur` with the
      record for the `i`th name holding the fresh rule `r`, which replaced
      the record's previous rule in the sheet. */
  ghost predicate StyleStep(ne: NamedMap, i: nat, cur: NamedMap, cur': NamedMap, info: ElementId -> ElementInfo, scb: Size,
                            rules0: seq<Rule>, rules: seq<Rule>, rules': seq<Rule>, r: Rule)
  {
    && i < |ne.names|
    && StyledUpTo(ne, i, cur, info, scb, rules0, rules)
    && var n := ne.names[i];
       var c := cur.Get(n);
       && r.text == GroupStyles(n, GroupBlock(c, info, scb))
       && cur' == cur.Set(n, c.(styleDefinitions := c.styleDefinitions.(groupStylesRule := r)))
       && rules' == (if c.styleDefinitions.groupStylesRule == null then rules
                     else RemoveFirst<Rule>(rules, c.styleDefinitions.groupStylesRule)) + [r]
       && r !in rules && r !in rules0 && r !in GroupStylesRules(ne)
  }

  /** After a step, the `i`th record holds its own new rule, once in the
      sheet. */
  lemma StyleStepNew(ne: NamedMap, i: nat, cur: NamedMap, cur': NamedMap, info: ElementId -> ElementInfo, scb: Size,
                     rules0: seq<Rule>, rules: seq<Rule>, rules': seq<Rule>, r: Rule)
    requires StyleStep(ne, i, cur, cur', info, scb, rules0, rules, rules', r)
    ensures var n := ne.names[i];
            && Restyled(ne.Get(n), cur'.Get(n), n, info, scb)
            && cur'.Get(n).styleDefinitions.groupStylesRule == r
            && multiset(rules')[r] == 1
  {
    var n := ne.names[i];
    var c := cur.Get(n);
    assert c == ne.Get(n);
    ReplaceCounts(rules, c.styleDefinitions.groupStylesRule, r, rules');
    SetOthers(ne, i, cur, c.(styleDefinitions := c.styleDefinitions.(groupStylesRule := r)));
  }

  /** After a step, the records dealt with before it still hold their own
      new rule, once in the sheet. */
  lemma StyleStepDone(ne: NamedMap, i: nat, cur: NamedMap, cur': NamedMap, info: ElementId -> ElementInfo, scb: Size,
                      rules0: seq<Rule>, rules: seq<Rule>, rules': seq<Rule>, r: Rule)
    requires StyleStep(ne, i, cur, cur', info, scb, rules0, rules, rules', r)
    ensures forall j :: 0 <= j < i ==>
              && Restyled(ne.Get(ne.names[j]), cur'.Get(ne.names[j]), ne.names[j], info, scb)
              && multiset(rules')[cur'.Get(ne.names[j]).styleDefinitions.groupStylesRule] == 1
              && cur'.Get(ne.names[j]).styleDefinitions.groupStylesRule !in rules0
              && cur'.Get(ne.names[j]).styleDefinitions.groupStylesRule !in GroupStylesRules(ne)
  {
    var n := ne.names[i];
    var c := cur.Get(n);
    var g := c.styleDefinitions.groupStylesRule;
    assert c == ne.Get(n);
    ReplaceCounts(rules, g, r, rules');
    SetOthers(ne, i, cur, c.(styleDefinitions := c.styleDefinitions.(groupStylesRule := r)));
    forall j | 0 <= j < i
      ensures multiset(rules')[cur'.Get(ne.names[j]).styleDefinitions.groupStylesRule] == 1
    {
      var q := cur.Get(ne.names[j]).styleDefinitions.groupStylesRule;
      assert q in rules;
    }
  }

  /** A step leaves the count of every rule that was in the sheet before the
      update, and is no group styles rule of `ne`, alone. */
  lemma StyleStepCounts(ne: NamedMap, i: nat, cur: NamedMap, cur': NamedMap, info: ElementId -> ElementInfo, scb: Size,
                        rules0: seq<Rule>, rules: seq<Rule>, rules': seq<Rule>, r: Rule)
    requires StyleStep(ne, i, cur, cur', info, scb, rules0, rules, rules', r)
    ensures forall x :: x in rules0 && x !in GroupStylesRules(ne) ==> multiset(rules')[x] == multiset(rules0)[x]
  {
    var n := ne.names[i];
    var c := cur.Get(n);
    var g := c.styleDefinitions.groupStylesRule;
    assert c == ne.Get(n);
    assert g != null ==> g in GroupStylesRules(ne);
    ReplaceCounts(rules, g, r, rules');
  }

  /** The bookkeeping of one iteration of the update, on values. */
  lemma StyleAdvance(ne: NamedMap, i: nat, cur: NamedMap, cur': NamedMap, info: ElementId -> ElementInfo, scb: Size,
                     rules0: seq<Rule>, rules: seq<Rule>, rules': seq<Rule>, r: Rule)
    requires StyleStep(ne, i, cur, cur', info, scb, rules0, rules, rules', r)
    ensures StyledUpTo(ne, i + 1, cur', info, scb, rules0, rules')
  {
    var n := ne.names[i];
    var c := cur.Get(n);
    SetOthers(ne, i, cur, c.(styleDefinitions := c.styleDefinitions.(groupStylesRule := r)));
    StyleStepNew(ne, i, cur, cur', info, scb, rules0, rules, rules', r);
    StyleStepDone(ne, i, cur, cur', info, scb, rules0, rules, rules', r);
    StyleStepCounts(ne, i, cur, cur', info, scb, rules0, rules, rules', r);
  }

  /** The group styles rules the records named in `names` hold, in the order
      of `names`, skipping the records that hold none. */
  function GroupRulesOf(ne: NamedMap, names: seq<string>): seq<Rule>
    requires forall n :: n in names ==> ne.Has(n)
  {
    if |names| == 0 then []
    else
      var g := ne.Get(names[|names| - 1]).styleDefinitions.groupStylesRule;
      GroupRulesOf(ne, names[..|names| - 1]) + (if g == null then [] else [g])
  }

  /** When every named record holds a group styles rule, there is one rule
      per name; when none does, there are none. */
  lemma {:induction false} GroupRulesCount(ne: NamedMap, names: seq<string>)
    requires forall n :: n in names ==> ne.Has(n)
    ensures (forall n :: n in names ==> ne.Get(n).styleDefinitions.groupStylesRule != null) ==>
              |GroupRulesOf(ne, names)| == |names|
    ensures (forall n :: n in names ==> ne.Get(n).styleDefinitions.groupStylesRule == null) ==>
              GroupRulesOf(ne, names) == []
  {
    if |names| > 0 {
      GroupRulesCount(ne, names[..|names| - 1]);
    }
  }

  /** Maps whose records named in `names` hold the same group styles rules
      list the same rules for them. */
  lemma {:induction false} GroupRulesAgree(a: NamedMap, b: NamedMap, names: seq<string>)
    requires forall n :: n in names ==>
               && a.Has(n) && b.Has(n)
               && a.Get(n).styleDefinitions.groupStylesRule == b.Get(n).styleDefinitions.groupStylesRule
    ensures GroupRulesOf(a, names) == GroupRulesOf(b, names)
  {
    if |names| > 0 {
      GroupRulesAgree(a, b, names[..|names| - 1]);
    }
  }

  /** A rule none of the named records holds is not among their group styles
      rules. */
  lemma {:induction false} GroupRulesAvoid(ne: NamedMap, names: seq<string>, g: Rule)
    requires forall n :: n in names ==> ne.Has(n) && ne.Get(n).styleDefinitions.groupStylesRule != g
    ensures g !in GroupRulesOf(ne, names)
  {
    if |names| > 0 {
      GroupRulesAvoid(ne, names[..|names| - 1], g);
    }
  }

  /** The sheet after the update has dealt with the first `i` records of `ne`:
      the sheet `rules0` less one copy of each of their previous group styles
      rules, plus each of their new ones. */
  ghost predicate SheetUpTo(ne: NamedMap, i: nat, cur: NamedMap, rules0: seq<Rule>, rules: seq<Rule>)
  {
    && i <= |ne.names|
    && cur.names == ne.names
    && multiset(rules) == multiset(rules0) - multiset(GroupRulesOf(ne, ne.names[..i]))
                                           + multiset(GroupRulesOf(cur, ne.names[..i]))
  }

  /** Taking one copy of `g` out of a sheet counted as `m0 - p + q` and adding
      one of `r` is the same as counting `g` in `p` and `r` in `q`, when `q`
      does not hold `g`. */
  lemma ShiftCounts<T>(m0: multiset<T>, p: multiset<T>, q: multiset<T>, g: T, r: T)
    requires q[g] == 0
    ensures (m0 - p + q) - multiset{g} + multiset{r} == m0 - (p + multiset{g}) + (q + multiset{r})
  {
    forall x
      ensures ((m0 - p + q) - multiset{g} + multiset{r})[x] == (m0 - (p + multiset{g}) + (q + multiset{r}))[x]
    {
    }
  }

  /** Extending the names by one adds the record's group styles rule, if
      any, at the end. */
  lemma GroupRulesSnoc(ne: NamedMap, names: seq<string>, k: nat)
    requires k < |names| && forall n :: n in names ==> ne.Has(n)
    ensures var g := ne.Get(names[k]).styleDefinitions.groupStylesRule;
            GroupRulesOf(ne, names[..k + 1]) == GroupRulesOf(ne, names[..k]) + (if g == null then [] else [g])
  {
    assert names[..k + 1][..k] == names[..k];
  }

  /** Setting the `i`th name leaves the group styles rules of the names before
      it alone. */
  lemma GroupRulesBefore(ne: NamedMap, i: nat, cur: NamedMap, x: CapturedElement)
    requires i < |ne.names| && cur.names == ne.names
    ensures forall n :: n in ne.names[..i] ==> cur.Has(n)
    ensures GroupRulesOf(cur.Set(ne.names[i], x), ne.names[..i]) == GroupRulesOf(cur, ne.names[..i])
  {
    SetOthers(ne, i, cur, x);
    forall m | m in ne.names[..i]
      ensures cur.Set(ne.names[i], x).Has(m) && cur.Has(m) && cur.Set(ne.names[i], x).Get(m) == cur.Get(m)
    {
      var j :| 0 <= j < i && ne.names[..i][j] == m;
      assert m == ne.names[j];
    }
    GroupRulesAgree(cur.Set(ne.names[i], x), cur, ne.names[..i]);
  }

  /** A previous group styles rule of `ne` is not among the new rules of the
      records the update has dealt with. */
  lemma GroupRulesFresh(ne: NamedMap, i: nat, cur: NamedMap, g: Rule)
    requires i <= |ne.names| && cur.names == ne.names && g in GroupStylesRules(ne)
    requires forall j :: 0 <= j < i ==>
               cur.Has(ne.names[j]) && cur.Get(ne.names[j]).styleDefinitions.groupStylesRule !in GroupStylesRules(ne)
    ensures g !in GroupRulesOf(cur, ne.names[..i])
  {
    forall m | m in ne.names[..i]
      ensures cur.Has(m) && cur.Get(m).styleDefinitions.groupStylesRule != g
    {
      var j :| 0 <= j < i && ne.names[..i][j] == m;
      assert m == ne.names[j];
    }
    GroupRulesAvoid(cur, ne.names[..i], g);
  }

  /** One iteration of the update keeps `SheetUpTo`. */
  lemma SheetStep(ne: NamedMap, i: nat, cur: NamedMap, cur': NamedMap,
                  rules0: seq<Rule>, rules: seq<Rule>, rules': seq<Rule>, r: Rule)
    requires i < |ne.names| && SheetUpTo(ne, i, cur, rules0, rules)
    requires cur.Has(ne.names[i]) && cur.Get(ne.names[i]) == ne.Get(ne.names[i])
    requires forall j :: 0 <= j < i ==>
               cur.Has(ne.names[j]) && cur.Get(ne.names[j]).styleDefinitions.groupStylesRule !in GroupStylesRules(ne)
    requires var n := ne.names[i];
             var c := cur.Get(n);
             && cur' == cur.Set(n, c.(styleDefinitions := c.styleDefinitions.(groupStylesRule := r)))
             && rules' == (if c.styleDefinitions.groupStylesRule == null then rules
                           else RemoveFirst<Rule>(rules, c.styleDefinitions.groupStylesRule)) + [r]
             && r !in rules
    ensures SheetUpTo(ne, i + 1, cur', rules0, rules')
  {
    var n := ne.names[i];
    var c := cur.Get(n);
    var g := c.styleDefinitions.groupStylesRule;
    GroupRulesBefore(ne, i, cur, c.(styleDefinitions := c.styleDefinitions.(groupStylesRule := r)));
    GroupRulesSnoc(ne, ne.names, i);
    GroupRulesSnoc(cur', ne.names, i);
    if g != null {
      GroupRulesFresh(ne, i, cur, g);
    }
    SheetCounts(multiset(rules0), GroupRulesOf(ne, ne.names[..i]), GroupRulesOf(cur, ne.names[..i]), rules, g, r, rules');
  }

  /** The counting half of `SheetStep`, on sequences. */
  lemma SheetCounts(m0: multiset<Rule>, p: seq<Rule>, q: seq<Rule>, rules: seq<Rule>, g: Rule?, r: Rule, rules': seq<Rule>)
    requires multiset(rules) == m0 - multiset(p) + multiset(q)
    requires rules' == (if g == null then rules else RemoveFirst<Rule>(rules, g)) + [r]
    requires g != null ==> g !in q
    ensures multiset(rules') == m0 - multiset(p + (if g == null then [] else [g])) + multiset(q + [r])
  {
    if g != null {
      RemoveFirstCount<Rule>(rules, g);
      ShiftCounts(m0, multiset(p), multiset(q), g, r);
    }
  }

  /** `SheetStep` for an iteration of the update. */
  lemma SheetAdvance(ne: NamedMap, i: nat, cur: NamedMap, cur': NamedMap, info: ElementId -> ElementInfo, scb: Size,
                     rules0: seq<Rule>, rules: seq<Rule>, rules': seq<Rule>, r: Rule)
    requires StyleStep(ne, i, cur, cur', info, scb, rules0, rules, rules', r)
    requires SheetUpTo(ne, i, cur, rules0, rules)
    ensures SheetUpTo(ne, i + 1, cur', rules0, rules')
  {
    SheetStep(ne, i, cur, cur', rules0, rules, rules', r);
  }

  /** One iteration of the update: restyles the `i`th record of `ne`. */
  method StyleNext(doc: Document, t: ViewTransition, ghost ne: NamedMap, i: nat, info: ElementId -> ElementInfo,
                   ghost rules0: seq<Rule>)
    requires doc.sheet.Valid() && i < |ne.names|
    requires StyledUpTo(ne, i, t.namedElements, info, doc.snapshotContainingBlockSize, rules0, doc.sheet.rules)
    requires SheetUpTo(ne, i, t.namedElements, rules0, doc.sheet.rules)
    modifies doc.sheet, t`namedElements
    ensures doc.sheet.Valid()
    ensures StyledUpTo(ne, i + 1, t.namedElements, info, doc.snapshotContainingBlockSize, rules0, doc.sheet.rules)
    ensures SheetUpTo(ne, i + 1, t.namedElements, rules0, doc.sheet.rules)
  {
    var n := t.namedElements.names[i];
    ghost var cur := t.namedElements;
    ghost var rules := doc.sheet.rules;
    UpdateRecordStyles(doc, t, n, info);
    StyleAdvance(ne, i, cur, t.namedElements, info, doc.snapshotContainingBlockSize, rules0, rules, doc.sheet.rules,
                 t.namedElements.Get(n).styleDefinitions.groupStylesRule);
    SheetAdvance(ne, i, cur, t.namedElements, info, doc.snapshotContainingBlockSize, rules0, rules, doc.sheet.rules,
                 t.namedElements.Get(n).styleDefinitions.groupStylesRule);
  }

  /** Updating the pseudo-element styles: gives every record, in map order, a
      new group styles rule sized after its new element (or after its old
      capture when it has none), replacing the record's previous group styles
      rule. Afterwards each record's rule is in the sheet exactly once, and
      every other rule that was in the sheet is there as often as before. The
      update never fails. */
  method UpdatePseudoElementStyles(doc: Document, t: ViewTransition, info: ElementId -> ElementInfo)
    requires doc.sheet.Valid()
    modifies doc.sheet, t`namedElements
    ensures doc.sheet.Valid()
    ensures t.namedElements.names == old(t.namedElements.names)
    ensures forall j :: 0 <= j < |t.namedElements.names| ==>
              var n := t.namedElements.names[j];
              var r := t.namedElements.Get(n).styleDefinitions.groupStylesRule;
              && Restyled(old(t.namedElements.Get(n)), t.namedElements.Get(n), n, info, doc.snapshotContainingBlockSize)
              && multiset(doc.sheet.rules)[r] == 1
              && r !in old(doc.sheet.rules)
    ensures forall r :: r in old(doc.sheet.rules) && r !in GroupStylesRules(old(t.namedElements)) ==>
              multiset(doc.sheet.rules)[r] == old(multiset(doc.sheet.rules))[r]
    ensures multiset(doc.sheet.rules) == old(multiset(doc.sheet.rules))
                                          - multiset(GroupRulesOf(old(t.namedElements), old(t.namedElements.names)))
                                          + multiset(GroupRulesOf(t.namedElements, t.namedElements.names))
    ensures |GroupRulesOf(t.namedElements, t.namedElements.names)| == |t.namedElements.names|
  {
    ghost var ne := t.namedElements;
    var i := 0;
    assert ne.names[..0] == [];
    while i < |t.namedElements.names|
      invariant doc.sheet.Valid()
      invariant StyledUpTo(ne, i, t.namedElements, info, doc.snapshotContainingBlockSize, old(doc.sheet.rules), doc.sheet.rules)
      invariant SheetUpTo(ne, i, t.namedElements, old(doc.sheet.rules), doc.sheet.rules)
    {
      StyleNext(doc, t, ne, i, info, old(doc.sheet.rules));
      i := i + 1;
    }
    assert ne.names[..i] == ne.names;
    GroupRulesCount(t.namedElements, t.namedElements.names);
  }
}

=== FILE: scene.dfy ===
/** What the transition core reads from the page. The script asks the DOM
    (`getComputedStyle`, `getBoundingClientRect`, `checkVisibility`) and a
    rasteriser (`html2canvas`); here all of that is one value per element,
    handed to each algorithm as a `Scene`. */
module Scene {

  /** An element of the page, by identity. */
  type ElementId = nat

  /** A rasterised picture of an element, by identity. */
  datatype Image = Image(id: nat)

  /** A width and a height: the snapshot containing block size. */
  datatype Size = Size(width: int, height: int)

  /** A border box: origin and extent (integers stand for the CSS pixels). */
  datatype Rect = Rect(x: int, y: int, width: int, height: int)

  /** `matrix(1, 0, 0, 1, x, y)`: the only transform the script builds. */
  datatype Transform = Translate(x: int, y: int)

  /** The six computed-style values a capture copies. */
  datatype StyleScalars = StyleScalars(
    writingMode: string,
    direction: string,
    textOrientation: string,
    mixBlendMode: string,
    backdropFilter: string,
    colorScheme: string)

  /** Everything the core reads about one element at one moment: the value of
      `--view-transition-name` (the empty string when the property is unset),
      `checkVisibility()`, the border box, the computed styles, whether it is
      `document.documentElement`, and the image a capture of it would give. */
  datatype ElementInfo = ElementInfo(
    transitionName: string,
    visible: bool,
    rect: Rect,
    style: StyleScalars,
    isDocumentElement: bool,
    image: Image)

  /** The page as one capture pass sees it: the configured elements, in the
      order the configuration lists them, and what each element looks like. */
  datatype Scene = Scene(elements: seq<ElementId>, info: ElementId -> ElementInfo)

  /** The box a capture uses: the whole snapshot containing block, at the
      origin, for the document element; the border box otherwise. */
  function CaptureRect(x: ElementInfo, scb: Size): Rect
  {
    if x.isDocumentElement then Rect(0, 0, scb.width, scb.height) else x.rect
  }

  /** An element takes part in a capture pass unless its name is the literal
      `none` or it is not rendered. Only that literal is excluded: an unset
      property reads as the empty string, which is a usable name. */
  predicate Participates(x: ElementInfo)
  {
    x.transitionName != "none" && x.visible
  }

  /** The elements a pass keeps, in configuration order. */
  function Kept(elements: seq<ElementId>, info: ElementId -> ElementInfo): seq<ElementId>
  {
    KeptPrefix(elements, |elements|, info)
  }

  /** The elements a pass keeps among the first `i` configured ones. */
  function KeptPrefix(elements: seq<ElementId>, i: nat, info: ElementId -> ElementInfo): seq<ElementId>
    requires i <= |elements|
  {
    if i == 0 then []
    else
      var e := elements[i - 1];
      KeptPrefix(elements, i - 1, info) + (if Participates(info(e)) then [e] else [])
  }

  /** The transition names of a list of elements. */
  function NamesOf(elements: seq<ElementId>, info: ElementId -> ElementInfo): seq<string>
  {
    seq(|elements|, i requires 0 <= i < |elements| => info(elements[i]).transitionName)
  }

  /** What a pass keeps from a shorter prefix is a prefix of what it keeps
      from a longer one. */
  lemma {:induction false} KeptPrefixExtends(elements: seq<ElementId>, i: nat, j: nat, info: ElementId -> ElementInfo)
    requires i <= j <= |elements|
    ensures |KeptPrefix(elements, i, info)| <= |KeptPrefix(elements, j, info)|
    ensures KeptPrefix(elements, j, info) ==
              KeptPrefix(elements, i, info) + KeptPrefix(elements, j, info)[|KeptPrefix(elements, i, info)|..]
    decreases j
  {
    if i < j {
      KeptPrefixExtends(elements, i, j - 1, info);
    }
  }

  /** What a pass keeps are exactly the participating configured elements. */
  lemma {:induction false} KeptPrefixMembers(elements: seq<ElementId>, i: nat, info: ElementId -> ElementInfo)
    requires i <= |elements|
    ensures forall e :: e in KeptPrefix(elements, i, info) <==>
              (exists k :: 0 <= k < i && elements[k] == e) && Participates(info(e))
  {
    if i > 0 {
      KeptPrefixMembers(elements, i - 1, info);
    }
  }

  lemma KeptMembers(elements: seq<ElementId>, info: ElementId -> ElementInfo)
    ensures forall e :: e in Kept(elements, info) <==> e in elements && Participates(info(e))
  {
    KeptPrefixMembers(elements, |elements|, info);
  }

  lemma NamesOfAppend(a: seq<ElementId>, b: seq<ElementId>, info: ElementId -> ElementInfo)
    ensures NamesOf(a + b, info) == NamesOf(a, info) + NamesOf(b, info)
  {
  }
}

=== FILE: stylesheet.dfy ===
/** The dynamic view-transition style sheet: `EasierToWorkWithCSSStyleSheet`,
    a real `CSSStyleSheet` mirrored by a list of the rule objects inserted into
    it, so that rules can be looked up and deleted by identity. */
module StyleSheets {
  import opened Common
  import opened Scene

  /** The declarations of a group styles rule. A record captured only on the
      new side has no old styles, which the script prints as `null`. */
  datatype GroupStyleBlock = GroupStyleBlock(
    width: int,
    height: int,
    transform: Transform,
    style: Option<StyleScalars>)

  /** What a generated rule says, by the kind of rule and its parameters. The
      CSS text templates themselves are not modelled. */
  datatype RuleText =
    | FadeIn(name: string)                 // ::view-transition-new(name): fade in
    | FadeOut(name: string)                // ::view-transition-old(name): fade out
    | GroupKeyframes(name: string, transform: Transform, width: int, height: int)
    | GroupAnimationName(name: string)     // ::view-transition-group(name) runs the keyframes
    | ImagePairIsolation(name: string)     // ::view-transition-image-pair(name): isolate
    | CrossFade(name: string)              // old fades out, new fades in, plus-lighter blending
    | GroupStyles(name: string, block: GroupStyleBlock)

  /** A CSS rule object. Two rules with the same text are still different
      rules: the sheet finds rules by identity. */
  class Rule {
    const text: RuleText

    constructor (text: RuleText)
      ensures this.text == text
    {
      this.text := text;
    }
  }

  function Texts(rules: seq<Rule>): seq<RuleText>
  {
    seq(|rules|, i requires 0 <= i < |rules| => rules[i].text)
  }

  lemma TextsAppend(a: seq<Rule>, b: seq<Rule>)
    ensures Texts(a + b) == Texts(a) + Texts(b)
  {
  }

  /** A sheet that begins with `before` and whose texts are those of
      `before` followed by `more` ends with rules whose texts are `more`. */
  lemma TextsSuffix(before: seq<Rule>, rules: seq<Rule>, more: seq<RuleText>)
    requires |before| <= |rules| && rules[..|before|] == before
    requires Texts(rules) == Texts(before) + more
    ensures Texts(rules[|before|..]) == more
    ensures rules == before + rules[|before|..]
    ensures multiset(rules) == multiset(before) + multiset(rules[|before|..])
  {
    assert rules == before + rules[|before|..];
    TextsAppend(before, rules[|before|..]);
    assert Texts(rules[|before|..]) == Texts(rules)[|before|..];
  }

  lemma TextsRemoveAt(rules: seq<Rule>, i: nat)
    requires i < |rules|
    ensures Texts(rules[..i] + rules[i + 1..]) == Texts(rules)[..i] + Texts(rules)[i + 1..]
  {
    TextsAppend(rules[..i], rules[i + 1..]);
  }

  class StyleSheet {
    /** `#rules`: the rule objects, in sheet order. */
    var rules: seq<Rule>
    /** `#styleSheet.cssRules`: the text of the rules the wrapped sheet holds. */
    var cssRules: seq<RuleText>

    /** The wrapped sheet stays index-aligned with `#rules`. */
    predicate Valid()
      reads this
    {
      cssRules == Texts(rules)
    }

    constructor ()
      ensures Valid() && rules == [] && cssRules == []
    {
      rules := [];
      cssRules := [];
    }

    /** `rules.includes(rule)`. */
    predicate HasRule(r: Rule)
      reads this
    {
      r in rules
    }

    /** Pushes the rule on `#rules` and inserts its text into the wrapped
        sheet at the index the rule now has. */
    method InsertRule(r: Rule)
      requires Valid()
      modifies this`rules, this`cssRules
      ensures Valid()
      ensures rules == old(rules) + [r]
      ensures HasRule(r)
      ensures multiset(rules)[r] == old(multiset(rules))[r] + 1
    {
      rules := rules + [r];
      var index := |rules| - 1;
      cssRules := cssRules[..index] + [r.text] + cssRules[index..];
    }

    /** Deletes the first occurrence of the rule from both lists; does nothing
        when the rule is absent. */
    method DeleteRule(r: Rule)
      requires Valid()
      modifies this`rules, this`cssRules
      ensures Valid()
      ensures rules == RemoveFirst(old(rules), r)
      ensures r !in old(rules) ==> rules == old(rules)
      ensures multiset(rules) == old(multiset(rules)) - multiset{r}
      ensures HasRule(r) <==> old(multiset(rules))[r] > 1
    {
      RemoveFirstCount(rules, r);
      var index := IndexOf(rules, r);
      if index != -1 {
        TextsRemoveAt(rules, index);
        cssRules := cssRules[..index] + cssRules[index + 1..];
        rules := rules[..index] + rules[index + 1..];
      }
    }

    /** Step 1.4 of updating the pseudo-element styles: deletes the previous
        rule, if there is one, and inserts the new one. */
    method ReplaceRule(previous: Rule?, rule: Rule)
      requires Valid()
      modifies this`rules, this`cssRules
      ensures Valid()
      ensures rules == (if previous == null then old(rules) else RemoveFirst<Rule>(old(rules), previous)) + [rule]
    {
      if previous != null {
        DeleteRule(previous);
      }
      InsertRule(rule);
    }
  }
}

=== FILE: transition.dfy ===
/** The `ViewTransition` object: its ordered phases, its map of captured
    elements, its three promises and its tree of pseudo-elements. */
module Transitions {
  import opened Common
  import opened Scene
  import opened StyleSheets
  import opened Promises

  // ---------------------------------------------------------------------------
  // Phases
  // ---------------------------------------------------------------------------

  datatype Phase = PendingCapture | UpdateCallbackCalled | Animating | Done

  /** The `phases` list: the phase names in their fixed order. */
  const Phases: seq<string> := ["pending-capture", "update-callback-called", "animating", "done"]

  function Name(p: Phase): string
  {
    match p
    case PendingCapture => "pending-capture"
    case UpdateCallbackCalled => "update-callback-called"
    case Animating => "animating"
    case Done => "done"
  }

  /** The position of a phase in the fixed order. */
  function Rank(p: Phase): nat
  {
    match p
    case PendingCapture => 0
    case UpdateCallbackCalled => 1
    case Animating => 2
    case Done => 3
  }

  /** `phases.indexOf(p) < phases.indexOf(q)`, the comparison the algorithms
      make to ask whether one phase comes before another. */
  predicate Before(p: Phase, q: Phase)
  {
    IndexOf(Phases, Name(p)) < IndexOf(Phases, Name(q))
  }

  /** A phase never goes back: it stays or moves later (`done` included). */
  predicate Advances(p: Phase, q: Phase)
  {
    Rank(p) <= Rank(q)
  }

  /** The phase a name denotes, if any: what the phase setter accepts. */
  function PhaseNamed(s: string): (r: Option<Phase>)
    ensures r.Some? <==> s in Phases
    ensures r.Some? ==> Name(r.value) == s
  {
    if s == "pending-capture" then Some(PendingCapture)
    else if s == "update-callback-called" then Some(UpdateCallbackCalled)
    else if s == "animating" then Some(Animating)
    else if s == "done" then Some(Done)
    else None
  }

  /** Each phase's name sits in `phases` at the phase's rank, so names and
      phases correspond one to one. */
  lemma PhaseIndex(p: Phase)
    ensures IndexOf(Phases, Name(p)) == Rank(p)
    ensures PhaseNamed(Name(p)) == Some(p)
  {
    assert Phases[Rank(p)] == Name(p);
    assert forall i :: 0 <= i < Rank(p) ==> Phases[i] != Name(p);
  }

  /** The index comparison orders phases by rank. */
  lemma BeforeIsRank(p: Phase, q: Phase)
    ensures Before(p, q) <==> Rank(p) < Rank(q)
  {
    PhaseIndex(p);
    PhaseIndex(q);
  }

  /** Only "pending-capture" comes before "update-callback-called". */
  lemma BeforeUpdateCallbackCalled(p: Phase)
    ensures Before(p, UpdateCallbackCalled) <==> p == PendingCapture
  {
    BeforeIsRank(p, UpdateCallbackCalled);
  }

  // ---------------------------------------------------------------------------
  // Captured elements
  // ---------------------------------------------------------------------------

  /** The rules a captured element owns. `imagePareIsolationRule` is the key
      the struct declares and nothing ever writes; the set-up step writes the
      differently spelled `imagePairIsolationRule`, which becomes a sixth key. */
  datatype StyleDefinitions = StyleDefinitions(
    groupKeyframes: Rule?,
    groupAnimationNameRule: Rule?,
    groupStylesRule: Rule?,
    imagePareIsolationRule: Rule?,
    imageAnimationNameRule: Rule?,
    imagePairIsolationRule: Rule?)

  const NoStyleDefinitions := StyleDefinitions(null, null, null, null, null, null)

  /** A captured element: what the old state recorded, the new element and its
      image, and the generated rules. */
  datatype CapturedElement = CapturedElement(
    oldImage: Option<Image>,
    oldWidth: int,
    oldHeight: int,
    oldTransform: Transform,
    oldStyle: Option<StyleScalars>,
    newElement: Option<ElementId>,
    newImage: Option<Image>,
    styleDefinitions: StyleDefinitions)

  /** A fresh clone of the captured element struct: no images, no elements,
      a zero size and the identity transform. */
  const EmptyCapture := CapturedElement(None, 0, 0, Translate(0, 0), None, None, None, NoStyleDefinitions)

  /** The named elements map: a JavaScript `Map`, which remembers the order in
      which its keys were first set. */
  datatype NamedElements = NamedElements(names: seq<string>, records: map<string, CapturedElement>)
  {
    predicate Valid()
    {
      && Distinct(names)
      && (forall n :: n in records ==> n in names)
      && (forall n :: n in names ==> n in records)
    }

    predicate Has(n: string)
    {
      n in records
    }

    function Get(n: string): CapturedElement
      requires Has(n)
    {
      records[n]
    }

    /** The new elements recorded in the map's records. */
    function NewElements(): set<ElementId>
    {
      set n | n in records && records[n].newElement.Some? :: records[n].newElement.value
    }

    /** `map.set(n, c)`: a new key goes last, an existing key keeps its place. */
    function Set(n: string, c: CapturedElement): (r: NamedElements)
      requires Valid()
      ensures r.Valid()
      ensures r.Has(n) && r.Get(n) == c
      ensures forall m :: m != n ==> (r.Has(m) <==> Has(m)) && (Has(m) ==> r.Get(m) == Get(m))
      ensures Has(n) ==> r.names == names
      ensures !Has(n) ==> r.names == names + [n]
    {
      NamedElements(if n in records then names else names + [n], records[n := c])
    }
  }

  /** A named elements map that keeps its invariant. */
  type NamedMap = m: NamedElements | m.Valid() witness NamedElements([], map[])

  const NoNamedElements: NamedMap := NamedElements([], map[])

  // ---------------------------------------------------------------------------
  // Pseudo-elements
  // ---------------------------------------------------------------------------

  /** A `::view-transition-group(name)` under the transition root, holding an
      image pair with an old and a new image pseudo-element where present. */
  datatype GroupPseudo = GroupPseudo(name: string, oldImage: Option<Image>, newImage: Option<Image>)

  /** One element of the pseudo-element tree below the transition root. */
  datatype PseudoNode =
    | GroupNode(name: string)
    | ImagePairNode(name: string)
    | OldNode(name: string)
    | NewNode(name: string)

  /** The descendants of the transition root, in document order. */
  function Descendants(groups: seq<GroupPseudo>): seq<PseudoNode>
  {
    if |groups| == 0 then []
    else
      var g := groups[0];
      [GroupNode(g.name), ImagePairNode(g.name)]
        + (if g.oldImage.Some? then [OldNode(g.name)] else [])
        + (if g.newImage.Some? then [NewNode(g.name)] else [])
        + Descendants(groups[1..])
  }

  // ---------------------------------------------------------------------------
  // The transition
  // ---------------------------------------------------------------------------

  /** What the caller's update callback does when it is invoked: it returns
      (possibly a promise, which the script drops) or throws synchronously. */
  datatype UpdateCallback = Returns | Throws

  class ViewTransition {
    var namedElements: NamedMap
    var phase: Phase
    var updateCallback: Option<UpdateCallback>
    const ready: WatchablePromise
    const updateCallbackDone: WatchablePromise
    const finished: WatchablePromise
    /** The children of the transition root pseudo-element. */
    var groups: seq<GroupPseudo>
    var initialSnapshotContainingBlockSize: Option<Size>

    /** The three promises are three different objects. */
    predicate Valid()
    {
      ready != updateCallbackDone && ready != finished && updateCallbackDone != finished
    }

    function Footprint(): set<object>
    {
      {this, ready, updateCallbackDone, finished}
    }

    constructor ()
      ensures Valid()
      ensures fresh(ready) && fresh(updateCallbackDone) && fresh(finished)
      ensures namedElements == NoNamedElements && phase == PendingCapture
      ensures updateCallback == None && groups == [] && initialSnapshotContainingBlockSize == None
      ensures ready.status == Pending && updateCallbackDone.status == Pending && finished.status == Pending
    {
      namedElements := NoNamedElements;
      phase := PendingCapture;
      updateCallback := None;
      ready := new WatchablePromise();
      updateCallbackDone := new WatchablePromise();
      finished := new WatchablePromise();
      groups := [];
      initialSnapshotContainingBlockSize := None;
    }

    /** The phase setter: accepts exactly the names in `phases`. */
    method SetPhase(name: string) returns (outcome: Outcome)
      modifies this`phase
      ensures name in Phases ==> outcome == Normal && Name(phase) == name
      ensures name !in Phases ==> outcome == Thrown(InvalidPhase) && phase == old(phase)
    {
      var p := PhaseNamed(name);
      if p.None? {
        return Thrown(InvalidPhase);
      }
      phase := p.value;
      outcome := Normal;
    }
  }
}
